=== FILE: README.md ===
# HTTP-client wire engine in Dafny

This project models the core of the PHP library `HttpClient`. The library is
a one-shot HTTP/1.1 client. It builds a request from a method, a URL, a body
and headers, and writes it to a freshly opened socket. It then reads the raw
response line by line: first the status line, then the header lines up to
the first blank line, then the body. A `4xx` status is reported as a client
error and a `5xx` status as a server error. Chunked bodies are decoded, and
JSON bodies are decoded when the `Content-Type` asks for it.

Everything is pure functions over values:

- The network behind the socket is a `Peer`. It accepts or refuses an
  endpoint that PHP's socket layer has taken, and it answers the text
  written to it with a finite sequence of raw lines. End of stream is the
  end of that sequence. The socket layer's own checks, an integer port and
  a registered transport, are modelled (`WireFormat.SocketTakes`).
- PHP's library primitives `parse_url`, `json_encode` and `json_decode` are
  uninterpreted function parameters (`Primitives.Env`).
- The exceptions the client throws are the constructors of one error
  datatype: `InvalidRequest`, `ConnectionError`, `ClientError(status)`,
  `ServerError(status)` and `JsonConversionError`.
- A request or message setter returns a new value instead of mutating
  `$this`.

Modules, following the PHP files:

- `Wrappers`: `Option` and `Result`.
- `Strings`: PHP's `trim`, `strtolower`, `strpos` (as containment) and `explode` over `seq<char>`.
- `Numerals`: decimal rendering and `hexdec`.
- `OrderedMap`: PHP arrays with string keys.
- `Primitives`: the JSON value, the `parse_url` record and the error datatype.
- `HttpRequestMethod`, `HttpMessage`, `HttpRequest`, `HttpResponse`: the records.
- `WireFormat`: connection parameters and request serialisation, from `sendUsingFsockopen`.
- `ResponseParser`: `getHttpResponseFromFp`.
- `BodyReader`: `getBodyContentFromFp`.
- `HttpClient`: `send` and `sendJson`.

Quirks of the code are modelled as written:

- The reason phrase is only the third space-separated token of the status line.
- A header value is the text between the first and the second `": "`.
- Every line read is trimmed, and body lines are joined with no separator.
- An explicit port is handed to the socket as the text `":<port>"`, and any
  scheme as the address's transport, so `fsockopen` refuses every URL with
  an explicit port or an `http` scheme (see "## Findings"). The rest of the
  model passes the port as a number and keeps a scheme only when it is a
  transport.
- Header names are exact array keys, case included (src/HttpMessage.php:72).
- `https` always goes to `ssl://` on port 443.
- The chunk decoder charges the trimmed length of whole data lines against the
  chunk size. This is an approximation of section 7.1 of RFC 9112, not a
  byte-exact decoder.
- A JSON body that decodes to `null` is an error, and so is the literal text
  `null`: the code tests only the decoded value (src/HttpClient.php:165-168).
- The plain body is the trimmed lines joined, not the raw bytes: each line is
  trimmed as it is read and appended with no line break
  (src/HttpClient.php:188,206).

## Model

| member | source | states |
|---|---|---|
| Strings.Trim | src/HttpClient.php:138 | `trim` leaves no blank at either end, gives `""` exactly for an all-blank line, and leaves an already trimmed text unchanged |
| Strings.TrimIsInner | src/HttpClient.php:151 | what `trim` keeps is a contiguous piece of the line with only blanks before and after it |
| Strings.TrimPadded | src/HttpClient.php:188 | a trimmed text followed by blanks (e.g. CRLF) trims back to the text, so each raw line reads as its content |
| Strings.ToLower | src/HttpRequest.php:70 | `strtolower` maps each character through ASCII lower-casing, keeps the length, and fixes a text that has no upper-case letter |
| Strings.Explode | src/HttpClient.php:139 | `explode` yields at least one piece, joining the pieces with the separator gives the input back, and no piece contains the separator |
| Strings.ExplodeAtFirstSeparator | src/HttpClient.php:157 | the first piece is the text before the leftmost separator, and the rest is exploded on its own |
| Strings.FieldRoundTrip | src/HttpClient.php:114 | a header line `name: value` written by the client explodes back into name and value when neither holds `": "` |
| Strings.ExplodeThree | src/HttpClient.php:111 | a request line of three space-free words explodes back into exactly those three words |
| Numerals.Render | src/HttpClient.php:116 | the decimal text of a length is non-empty, all digits, without leading zero unless it is 0, and reads back to the number |
| Numerals.HexDecZeroIff | src/HttpClient.php:192-196 | `hexdec` is 0 exactly when every hex digit in the line is `0`, so an empty or digit-free size line ends the body |
| OrderedMap.Lookup | src/HttpMessage.php:58-61 | a key is absent exactly when it is not among the keys, and a found value is stored under that key |
| OrderedMap.InsertLookup | src/HttpMessage.php:70-75 | after `$headers[$name] = $value` the name maps to the value and every other name to its earlier value |
| OrderedMap.InsertKeys | src/HttpMessage.php:72 | assigning keeps the key order: a present key keeps its place, a new key is appended with its value |
| OrderedMap.InsertInPlace | src/HttpMessage.php:72 | assigning keeps the names distinct and overwrites a present name at its own position |
| OrderedMap.LookupInsertAll | src/HttpClient.php:61-67 | after assigning a sequence of pairs (a `foreach`, or `array_merge`), each key has the value of its last pair, and keys without pairs keep their value |
| OrderedMap.InsertAllDistinct | src/HttpClient.php:42-44 | assigning pairs with distinct names to an empty map gives exactly those pairs in that order |
| HttpRequestMethod.AllMethods | src/HttpRequestMethod.php:19-27 | the method list is exactly GET, HEAD, POST, PUT, DELETE, CONNECT, OPTIONS, TRACE, PATCH in that order, pairwise distinct, each an upper-case word |
| HttpRequestMethod.LowerCasedIsNotAMethod | src/HttpRequest.php:43-44 | the strict membership test is case-sensitive: the lower-cased form of a method is never a method |
| HttpRequestMethod.OutsideTokensAreNotMethods | src/HttpRequestMethod.php:34-41 | the set is closed: `INVALID` and `get` are not methods |
| HttpMessage.NewMessage | src/HttpMessage.php:18-28 | a new message has an empty body, no headers and protocol HTTP/1.1, and is valid |
| HttpMessage.WithBody | src/HttpMessage.php:46-51 | the body read back is the body set, and headers and protocol are unchanged |
| HttpMessage.WithHeader | src/HttpMessage.php:70-75 | the header read back is the value set, every other header is unchanged, and body and protocol are kept |
| HttpMessage.WithHeaders | src/HttpClient.php:42-44 | after assigning headers one by one, each name has the value of its last pair, names not assigned keep their value, and body, protocol and distinctness of names are kept |
| HttpMessage.LastWriteWins | src/HttpMessage.php:72 | setting a name twice leaves the same header map as setting it once to the second value |
| HttpMessage.GetHeader | src/HttpClient.php:163-164 | the header lookup the response reader needs: the value stored under exactly that name, or null when it is absent |
| HttpMessage.CaseVariantsAreDistinctHeaders | src/HttpMessage.php:66-75 | names are exact array keys: `content-type` is a header of its own next to `Content-Type`, and assigning it leaves `Content-Type` alone, whatever the doc comment's "case-insensitive" says |
| HttpMessage.GetHeaderAfterWithHeader | src/HttpClient.php:158-164 | a header just assigned with `withHeader` is what the lookup returns for that name |
| HttpRequest.NewRequest | src/HttpRequest.php:17-22 | a new request has method GET, URL `""`, an empty body and no headers |
| HttpRequest.WithMethod | src/HttpRequest.php:41-49 | succeeds exactly for a member of the method set, storing it and changing nothing else; otherwise InvalidRequest |
| HttpRequest.WithUrl | src/HttpRequest.php:68-78 | succeeds exactly when `parse_url` of the lower-cased URL is truthy, storing the lower-cased URL; otherwise InvalidRequest |
| HttpRequest.WithUrlKeepsLowerCaseUrl | src/HttpRequest.php:70-75 | an already lower-case valid URL is stored as given |
| HttpRequest.WithUrlIdempotent | src/HttpRequest.php:68-78 | setting the same URL twice has the effect of setting it once |
| HttpRequest.TripleSlashIsRejected | src/HttpRequest.php:71-74 | `///`, which `parse_url` rejects, is refused with InvalidRequest |
| HttpResponse.NewResponse | src/HttpResponse.php:15-20 | a new response has no status code and no reason phrase, an empty body and no headers |
| HttpResponse.WithStatusCode | src/HttpResponse.php:61-66 | the status code read back is the one set, unvalidated, and reason phrase and message are unchanged |
| HttpResponse.WithReasonPhrase | src/HttpResponse.php:38-43 | the reason phrase read back is the one set, and status code and message are unchanged |
| WireFormat.ConnectionTarget | src/HttpClient.php:89-102 | corrected target: https goes to `ssl://host` on port 443 whatever the URL says; otherwise the hostname is `scheme://host` when the scheme is a registered socket transport and just the host otherwise (so `http` goes over plain tcp), and the port is the URL's port as a number, or 80; the host is the URL's host or empty; the path is the URL's path or `/`; a query is prefixed with `?`, an absent one is empty |
| WireFormat.ConnectionTargetAsWritten | src/HttpClient.php:89-102 | as written: any truthy non-https scheme is put before the host with `://`; a non-https explicit port becomes the text `":"` followed by decimal digits without a leading zero (unless the port is 0) that read back to the port; host, path and query are the corrected target's, and https is unchanged |
| WireFormat.UnknownTransportIsRefused | src/HttpClient.php:102-105 | an address as written whose scheme (e.g. `http`) is no registered transport is refused by the socket layer whatever the port, while the corrected address is the bare host |
| WireFormat.CorrectedTargetIsTaken | src/HttpClient.php:89-105 | the corrected endpoint always passes the socket layer's checks (integer port, known or no transport) for a host without `://` |
| WireFormat.WireRequestReadsBack | src/HttpClient.php:111-118 | the written request splits at the first blank line into exactly the head lines, followed by the body and two CRLFs |
| WireFormat.HeadLinesReadBack | src/HttpClient.php:111-117 | the head is the request line (method, path and query, protocol), Host, the headers in order, `Content-length` reading back to the body length, and `Connection: close` |
| WireFormat.FieldLinesReadBack | src/HttpClient.php:113-115 | every header line written explodes back into its name and value |
| BodyReader.ReadBody | src/HttpClient.php:183-210 | the line-by-line reading loop computes the body that the recursive definition BodyContent describes |
| BodyReader.PlainBodyIsAllLines | src/HttpClient.php:205-206 | without chunking the body is every remaining line, trimmed, joined with no separator |
| BodyReader.TrailingEmptyReadIsHarmless | src/HttpClient.php:187-188 | the extra empty read at end of stream does not change the body, chunked or not |
| BodyReader.ZeroSizeEndsBody | src/HttpClient.php:190-196 | a size line whose `hexdec` is 0, the empty line included, ends the body and nothing after it is read |
| BodyReader.DataLinesOfChunk | src/HttpClient.php:199-206 | the data lines of a chunk are appended whole while their lengths stay within the size, and the line that uses the budget up returns to size reading |
| BodyReader.ChunkedBodyIsChunkData | src/HttpClient.php:189-206 | a sequence of chunks that each fit their size, then a zero size line, decodes to their data joined, with no size line in it |
| BodyReader.ChunkedRoundTrip | src/HttpClient.php:189-206 | single-line chunks (trimmed, no line feed inside) framed with their hex sizes and a `0` line decode back to the chunk texts joined |
| BodyReader.MultiLineChunkAbsorbsTerminator | src/HttpClient.php:199-203 | the approximation at work: a 6-octet chunk sent as `ab`/`cd` keeps budget 2 and so also takes the `0` line as data |
| ResponseParser.Piece | src/HttpClient.php:139 | a list element past the end of `explode`'s result reads as null, otherwise as that piece |
| ResponseParser.ParseHeaderLine | src/HttpClient.php:157 | the header name is a prefix of the line free of `": "`; the value is null exactly when the line has no `": "`, and then the name is the whole line; otherwise the value is free of `": "` and the line is name, `": "`, value, and either ends there or goes on with another `": "` |
| ResponseParser.HeaderBlock | src/HttpClient.php:150-160 | header lines are read up to the first line empty after `trim`, each parsed in order; the body is what follows that line, or nothing if there is none |
| ResponseParser.Negotiate | src/HttpClient.php:164-170 | a Content-Type containing `application/json` turns the body into its decoding, and a decoding to null is JsonConversionError; any other body stays text |
| ResponseParser.BodyFollowsTransferEncoding | src/HttpClient.php:163-210 | a text body is chunk-decoded when `Transfer-Encoding` is `chunked`, and is every remaining line trimmed and joined otherwise |
| ResponseParser.ParseResponse | src/HttpClient.php:133-174 | a status token leading with 4 or 5 is ClientError or ServerError with that token; otherwise the response carries the second and third tokens and the headers with later duplicates overwriting, or JsonConversionError exactly for a JSON type whose body decodes to null; on success the body is the decoded JSON for a JSON Content-Type and the body text otherwise |
| ResponseParser.ErrorStatusReadsOneLine | src/HttpClient.php:140-146 | an error status is decided by the status line alone: what follows it makes no difference |
| ResponseParser.HeaderValueIsSecondPiece | src/HttpClient.php:157 | in `name: value: more` the value is `value`; the text after a second `": "` is dropped |
| ResponseParser.HeaderLineWithoutSeparator | src/HttpClient.php:157-158 | a header line without `": "` becomes a header named by the whole line with a null value |
| ResponseParser.StatusLineTokens | src/HttpClient.php:138-139 | status code and reason phrase are the second and third space-separated words of the trimmed status line, whether or not more words follow |
| ResponseParser.ReasonKeepsFirstWord | src/HttpClient.php:138-147 | a two-word reason phrase keeps only its first word (`304 Not Modified` gives `Not`) |
| ResponseParser.LastHeaderLineWins | src/HttpClient.php:150-158 | each header name maps to the value of its last line in the header block |
| ResponseParser.ExtraEmptyReadIsHarmless | src/HttpClient.php:150-151 | the extra empty read PHP makes at end of stream changes neither status, headers nor body |
| ResponseParser.HeaderBlockOf | src/HttpClient.php:150-160 | distinct sendable header lines and a blank line read back as exactly those fields, the rest being the body |
| ResponseParser.ResponseRoundTrip | src/HttpClient.php:133-174 | a response with a non-error status, a one-word reason, plain headers and body lines as `fgets` delivers them parses back to that status, that reason, those headers and the trimmed lines joined |
| ResponseParser.ParseResponseAsWritten | src/HttpClient.php:163-164 | as written, no response is ever returned: error statuses raise as in ParseResponse, and every other status ends in the fatal error for the undefined `getHeader` |
| ResponseParser.OkResponseHitsUndefinedGetHeader | src/HttpClient.php:163 | `HTTP/1.1 200 OK` with no headers fails as written on `getHeader`, while the corrected reader returns status 200, reason OK |
| HttpClient.BuildRequest | src/HttpClient.php:36-44 | the request is built exactly when method and URL are valid, carrying that method, the lower-cased URL, the body and each header's last value |
| HttpClient.Transmit | src/HttpClient.php:79-125 | a refused connection is ConnectionError with nothing written; otherwise the written text is the serialised request to the URL's endpoint and the outcome is the parse of the peer's answer |
| HttpClient.TransmitAsWritten | src/HttpClient.php:89-108 | as written: an endpoint the socket layer refuses (text port, unknown transport) gives ConnectionError with nothing written; a taken endpoint is refused or accepted by the peer, and on acceptance the serialised request is written to it |
| HttpClient.UnknownTransportNeverConnects | src/HttpClient.php:97-108 | a URL whose scheme is no socket transport (`http` among them) never gets a request out as written, while the corrected target drops the scheme and writes the request to any peer accepting the endpoint |
| HttpClient.ExplicitPortNeverConnects | src/HttpClient.php:92-108 | a non-https URL naming a port never gets a request out as written, while the corrected target passes that port as a number and writes the request to any peer accepting it |
| HttpClient.Send | src/HttpClient.php:36-47 | InvalidRequest exactly for a bad method or URL, ConnectionError exactly for a refused endpoint, in both cases with nothing written; otherwise the request is written |
| HttpClient.SendWrites | src/HttpClient.php:111-120 | what `send` writes is the serialised request with the headers as assigned, and the outcome is the parse of the answer to it |
| HttpClient.SendWritesHeadersInOrder | src/HttpClient.php:42-44 | headers given with distinct names are written in the given order |
| HttpClient.SendJsonWrites | src/HttpClient.php:58-70 | `sendJson` writes the encoded body; the header names are the caller's in their order followed by whichever of `Content-type` and `Accept` are new; both are set to `application/json` over any caller value, and every other caller header is sent as given |
| HttpClient.JsonHeadersKeys | src/HttpClient.php:61-67 | `array_merge` keeps the caller's names in order and appends `Content-type`, then `Accept`, each only when the caller lacks it |
| HttpClient.SendReceivesResponse | src/HttpClient.php:36-47 | end to end, for the corrected target, a valid call to a server answering a plain response returns that response's status, reason, headers and body |

## Left out

- Socket I/O (`fsockopen`, `fputs`, `fgets`, `feof`, `fclose`) is replaced by the `Peer` parameter. `feof` is "no raw line left"; the final `fgets` returning `false` is the empty line that `ExtraEmptyReadIsHarmless` covers.
- The 30-second connect timeout and the error number and message of a failed connect: time is not modelled, and only the error kind is kept.
- The registered socket transports are taken to be those of a PHP build with OpenSSL: tcp, udp, unix, udg, ssl, tls and tlsv1.0 to tlsv1.3. Other builds may register fewer or more.
- HttpClient.TransmitAsWritten: the refusal of `http://` addresses (no such transport) and of a text port is modelled; what a taken endpoint does is left to the peer.
- HttpClient.SendReceivesResponse: states the corrected client. As written, every `http` URL and every URL with an explicit port is refused before anything is sent (see "## Findings"), so no response comes back.
- The text `":<port>"` is passed where `fsockopen` takes an integer, and PHP refuses it every time. PHP 7 warns and returns no stream, so the RuntimeException at src/HttpClient.php:106-107 follows; PHP 8 throws a TypeError instead. TransmitAsWritten models the PHP 7 path (ConnectionError); the PHP 8 TypeError is not a separate outcome.
- Header names are case-sensitive array keys (src/HttpMessage.php:72), although the doc comment at src/HttpMessage.php:66 calls the name case-insensitive. The model follows line 72 (CaseVariantsAreDistinctHeaders), so a server's `content-type` line is not seen by the reader's lookup of `Content-Type`. Case-folded names are not modelled.
- `parse_url`, `json_encode` and `json_decode` are uninterpreted parameters. `json_encode` returning `false` is not modelled.
- `hexdec` returns a float once the value exceeds the integer range. The model reads sizes as unbounded naturals.
- The exception messages, including the raw body that the JSON error message means to carry, are dropped; only the error kind and the status are kept.
- `getAllMethods` gets its list by reflection on the class constants and returns `[]` on a reflection failure. The model uses the nine constants as a literal list.
- PHP arrays whose keys are integers or numeric strings renumber in `array_merge`. Header names are modelled as strings only.
- Characters stand for bytes; there is no encoding.
- The peer's answer is taken as lines already split the way `fgets` splits them. The round-trip lemmas that build such lines from parts (ChunkedRoundTrip, ResponseRoundTrip, SendReceivesResponse) require that no part holds a line feed, except as a line's last character, because a line feed inside a part would make `fgets` split it into two reads.
- The exception classes under src/Exceptions are constructors of the error datatype and nothing more.
- HttpClient.SendJson: stated through SendJsonWrites rather than its own contract; the encoded body is whatever the `json_encode` parameter returns.

## Findings

| source | as written | input that shows it | evidently intended | confidence | as-written member | corrected member |
|---|---|---|---|---|---|---|
| src/HttpClient.php:163-164 | the response reader calls `$response->getHeader(...)`, but neither HttpResponse nor HttpMessage defines `getHeader` (only `getHeaders`), so PHP stops with a fatal undefined-method error | any response whose status does not start with 4 or 5, e.g. `HTTP/1.1 200 OK` followed by a blank line | the value of the named header, or null when it is absent | not executed; high: the method is defined nowhere in the repository | ResponseParser.ParseResponseAsWritten | HttpMessage.GetHeader |
| src/HttpClient.php:92-107 | an explicit port is prefixed with `:` and the text `":8080"` is passed as the port argument of `fsockopen`, which takes an integer; PHP refuses it (PHP 7: warning and no stream, then the RuntimeException of lines 106-107; PHP 8: TypeError), so no request is ever sent | any URL that is not https and names a port, e.g. `//h:8080/`, which has no scheme and so no transport problem | the port passed as the number 8080 | not executed; high: the parameter type of `fsockopen` is int and `":8080"` is not numeric | HttpClient.ExplicitPortNeverConnects | WireFormat.ConnectionTarget | src/HttpClient.php:89-102 | corrected target: https goes to `ssl://host` on port 443 whatever the URL says; otherwise the hostname is `scheme://host` when the scheme is a registered socket transport and just the host otherwise (so `http` goes over plain tcp), and the port is the URL's port as a number, or 80; the host is the URL's host or empty; the path is the URL's path or `/`; a query is prefixed with `?`, an absent one is empty |
| src/HttpClient.php:97-105 | any truthy scheme other than https is put in front of the host as `scheme://`, and `fsockopen` reads that as the name of a socket transport; `http` is none, so the socket layer refuses the address (no stream, then the RuntimeException of lines 106-107) whatever the port | any `http` URL, e.g. `http://h/` | plain tcp to the host: the scheme dropped unless it names a transport | not executed; high: PHP registers no `http` socket transport | HttpClient.UnknownTransportNeverConnects | WireFormat.ConnectionTarget |

=== FILE: BodyReader.dfy ===
/** Reading the response body. Every remaining line is trimmed and appended
    with no separator. In chunked mode a size line (hexadecimal, read with
    `hexdec`) precedes the data lines of each chunk, and the size is a budget
    used up by the trimmed lengths of whole data lines: an approximation of
    the chunked transfer coding of section 7.1 of RFC 9112, kept as the
    client has it. */
module BodyReader {
  import opened Wrappers
  import opened Strings
  import opened Numerals

  /** The loop variable `$chunk_length`: None while a size line is expected,
      Some(budget), budget > 0, while data lines are read. */
  type Budget = Option<nat>

  /** Each raw line as the client sees it after `trim`. */
  function TrimAll(lines: seq<string>): (ts: seq<string>)
    ensures |ts| == |lines|
  {
    if lines == [] then [] else [Trim(lines[0])] + TrimAll(lines[1..])
  }

  lemma {:induction false} TrimAllAt(lines: seq<string>, i: nat)
    requires i < |lines|
    ensures TrimAll(lines)[i] == Trim(lines[i])
    decreases i
  {
    if i > 0 {
      TrimAllAt(lines[1..], i - 1);
    }
  }

  lemma {:induction false} TrimAllAppend(a: seq<string>, b: seq<string>)
    ensures TrimAll(a + b) == TrimAll(a) + TrimAll(b)
    decreases |a|
  {
    if a == [] {
      assert a + b == b;
    } else {
      assert (a + b)[0] == a[0] && (a + b)[1..] == a[1..] + b;
      TrimAllAppend(a[1..], b);
    }
  }

  /** The texts `ts` joined in order with no separator. */
  function Concat(ts: seq<string>): string {
    if ts == [] then "" else ts[0] + Concat(ts[1..])
  }

  /** The rest of the body read from the trimmed lines `texts` in the given
      loop state. */
  function Collect(texts: seq<string>, chunked: bool, budget: Budget): string
    decreases |texts|
  {
    if texts == [] then ""
    else
      var line := texts[0];
      if !chunked then line + Collect(texts[1..], chunked, budget)
      else if budget.None? then
        var n := HexDec(line);
        if n == 0 then "" else Collect(texts[1..], chunked, Some(n))
      else
        var left := budget.value - |line|;
        line + Collect(texts[1..], chunked, if left <= 0 then None else Some(left as nat))
  }

  lemma CollectPlain(texts: seq<string>, i: nat, budget: Budget)
    requires i < |texts|
    ensures Collect(texts[i..], false, budget) == texts[i] + Collect(texts[i + 1..], false, budget)
  {
    assert texts[i..][0] == texts[i] && texts[i..][1..] == texts[i + 1..];
  }

  lemma CollectSize(texts: seq<string>, i: nat)
    requires i < |texts|
    ensures HexDec(texts[i]) == 0 ==> Collect(texts[i..], true, None) == ""
    ensures HexDec(texts[i]) != 0 ==>
      Collect(texts[i..], true, None) == Collect(texts[i + 1..], true, Some(HexDec(texts[i])))
  {
    assert texts[i..][0] == texts[i] && texts[i..][1..] == texts[i + 1..];
  }

  lemma CollectData(texts: seq<string>, i: nat, budget: nat)
    requires i < |texts|
    ensures var left := budget - |texts[i]|;
      Collect(texts[i..], true, Some(budget)) ==
        texts[i] + Collect(texts[i + 1..], true, if left <= 0 then None else Some(left as nat))
  {
    assert texts[i..][0] == texts[i] && texts[i..][1..] == texts[i + 1..];
  }

  /** The body read from the raw lines that follow the header block. */
  function BodyContent(lines: seq<string>, chunked: bool): string {
    Collect(TrimAll(lines), chunked, None)
  }

  /** The reading loop as the client runs it: a line at a time, a size line
      either ending the loop or opening a chunk, a data line appended and
      charged to the budget. */
  method ReadBody(lines: seq<string>, chunked: bool) returns (body: string)
    ensures body == BodyContent(lines, chunked)
  {
    ghost var texts := TrimAll(lines);
    body := "";
    var budget: Budget := None;
    var i := 0;
    while i < |lines|
      invariant 0 <= i <= |lines|
      invariant body + Collect(texts[i..], chunked, budget) == BodyContent(lines, chunked)
    {
      var line := Trim(lines[i]);
      TrimAllAt(lines, i);
      if chunked {
        if budget.None? {
          CollectSize(texts, i);
          var n := HexDec(line);
          if n == 0 {
            assert body == BodyContent(lines, chunked);
            break;
          }
          budget := Some(n);
          i := i + 1;
          continue;
        }
        CollectData(texts, i, budget.value);
        var left := budget.value - |line|;
        budget := if left <= 0 then None else Some(left as nat);
      } else {
        CollectPlain(texts, i, budget);
      }
      body := body + line;
      i := i + 1;
    }
  }

  /** Without chunking the body is every remaining line, trimmed, joined in
      order with no separator. */
  lemma PlainBodyIsAllLines(lines: seq<string>)
    ensures BodyContent(lines, false) == Concat(TrimAll(lines))
  {
    PlainCollect(TrimAll(lines), None);
  }

  lemma {:induction false} PlainCollect(texts: seq<string>, budget: Budget)
    ensures Collect(texts, false, budget) == Concat(texts)
    decreases |texts|
  {
    if texts != [] {
      PlainCollect(texts[1..], budget);
    }
  }

  /** The extra read at end of stream returns no text, which `trim` turns into
      an empty line; it leaves the body as it was, chunked or not. */
  lemma TrailingEmptyReadIsHarmless(lines: seq<string>, chunked: bool)
    ensures BodyContent(lines + [""], chunked) == BodyContent(lines, chunked)
  {
    var t := TrimAll(lines);
    TrimAllAppend(lines, [""]);
    assert TrimAll([""]) == [""];
    assert TrimAll(lines + [""]) == t + [""];
    CollectEmptyLast(t, chunked, None);
  }

  lemma {:induction false} CollectEmptyLast(texts: seq<string>, chunked: bool, budget: Budget)
    ensures Collect(texts + [""], chunked, budget) == Collect(texts, chunked, budget)
    decreases |texts|
  {
    if texts == [] {
      assert HexDec("") == 0;
      assert Collect([""], chunked, budget) == "";
    } else {
      assert (texts + [""])[0] == texts[0] && (texts + [""])[1..] == texts[1..] + [""];
      forall b: Budget {
        CollectEmptyLast(texts[1..], chunked, b);
      }
    }
  }

  /** In chunked mode a size line that reads as 0 (no hexadecimal digit
      other than `0`, an empty line included) ends the body, whatever
      follows; it adds nothing itself. */
  lemma ZeroSizeEndsBody(size: string, rest: seq<string>)
    requires forall k | 0 <= k < |size| && IsDigit(size[k], 16) :: size[k] == '0'
    ensures Collect([size] + rest, true, None) == ""
  {
    HexDecZeroIff(size);
    assert ([size] + rest)[0] == size;
  }

  /** A chunk as the client meets it, after `trim`: a size line and the data
      lines that follow it. */
  datatype Chunk = Chunk(size: string, data: seq<string>)

  /** The data lines are charged against the size: the budget is still
      positive before the last data line and used up by it. */
  predicate FitsSize(c: Chunk) {
    var n := HexDec(c.size);
    n > 0 && c.data != [] && |Concat(c.data[..|c.data| - 1])| < n <= |Concat(c.data)|
  }

  /** The texts of a sequence of chunks, size line first in each. */
  function ChunkTexts(cs: seq<Chunk>): seq<string> {
    if cs == [] then [] else [cs[0].size] + cs[0].data + ChunkTexts(cs[1..])
  }

  /** The data of a sequence of chunks, joined in order. */
  function ChunkData(cs: seq<Chunk>): string {
    if cs == [] then "" else Concat(cs[0].data) + ChunkData(cs[1..])
  }

  /** Each data line of a chunk is appended and charged to the budget; the
      last one uses it up, so the line after is read as a size line. */
  lemma {:induction false} DataLinesOfChunk(data: seq<string>, n: nat, rest: seq<string>)
    requires data != [] && |Concat(data[..|data| - 1])| < n <= |Concat(data)|
    ensures Collect(data + rest, true, Some(n)) == Concat(data) + Collect(rest, true, None)
    decreases |data|
  {
    var d, more := data[0], data[1..];
    assert (data + rest)[0] == d && (data + rest)[1..] == more + rest;
    if more == [] {
      assert data[..|data| - 1] == [];
      assert Concat(data) == d + Concat([]);
    } else {
      assert data[..|data| - 1] == [d] + more[..|more| - 1];
      assert data[..|data| - 1][1..] == more[..|more| - 1];
      assert Concat(data[..|data| - 1]) == d + Concat(more[..|more| - 1]);
      assert Concat(data) == d + Concat(more);
      DataLinesOfChunk(more, n - |d|, rest);
    }
  }

  /** Chunks that fit their sizes, closed by a size line that reads as 0:
      the body is exactly the chunks' data, size lines never appended,
      and nothing after the closing size line is read into it. */
  lemma {:induction false} ChunkedBodyIsChunkData(cs: seq<Chunk>, last: string, more: seq<string>)
    requires forall i | 0 <= i < |cs| :: FitsSize(cs[i])
    requires HexDec(last) == 0
    ensures Collect(ChunkTexts(cs) + [last] + more, true, None) == ChunkData(cs)
    decreases |cs|
  {
    if cs == [] {
      assert (ChunkTexts(cs) + [last] + more)[0] == last;
    } else {
      var c := cs[0];
      var tail := ChunkTexts(cs[1..]) + [last] + more;
      assert ChunkTexts(cs) + [last] + more == [c.size] + (c.data + tail);
      assert FitsSize(c);
      assert ([c.size] + (c.data + tail))[1..] == c.data + tail;
      DataLinesOfChunk(c.data, HexDec(c.size), tail);
      ChunkedBodyIsChunkData(cs[1..], last, more);
    }
  }

  /** The raw lines of the chunked coding of `chunks` when no chunk spans a
      line: the size in hexadecimal, then the chunk, each ended by CRLF. */
  function SingleLineChunks(chunks: seq<string>): seq<string> {
    if chunks == [] then []
    else [Render(|chunks[0]|, 16) + CRLF, chunks[0] + CRLF] + SingleLineChunks(chunks[1..])
  }

  /** Chunked coding read back: chunks that each fit on one line (no line
      feed inside, so `fgets` delivers each as one line) and carry no
      leading or trailing blanks are recovered in order, joined, once the
      closing `0` line arrives, whatever trails it. */
  lemma ChunkedRoundTrip(chunks: seq<string>, trailer: seq<string>)
    requires forall i | 0 <= i < |chunks| :: chunks[i] != [] && IsTrimmed(chunks[i]) && '\n' !in chunks[i]
    ensures BodyContent(SingleLineChunks(chunks) + (["0" + CRLF] + trailer), true) == Concat(chunks)
  {
    var coded, tail := SingleLineChunks(chunks), ["0" + CRLF] + trailer;
    calc {
      BodyContent(coded + tail, true);
      Collect(TrimAll(coded + tail), true, None);
      { TrimAllAppend(coded, tail); }
      Collect(TrimAll(coded) + TrimAll(tail), true, None);
      { SingleLineChunksRead(chunks, TrimAll(tail)); }
      Concat(chunks) + Collect(TrimAll(tail), true, None);
      { ClosingLine(trailer); }
      Concat(chunks) + "";
    }
  }

  /** The closing `0` line ends a chunked body. */
  lemma ClosingLine(trailer: seq<string>)
    ensures Collect(TrimAll(["0" + CRLF] + trailer), true, None) == ""
  {
    var tail := ["0" + CRLF] + trailer;
    TrimPadded("0", CRLF);
    assert tail[0] == "0" + CRLF && tail[1..] == trailer;
    assert TrimAll(tail) == ["0"] + TrimAll(trailer);
    assert HexDec("0") == 0;
  }

  lemma {:induction false} SingleLineChunksRead(chunks: seq<string>, rest: seq<string>)
    requires forall i | 0 <= i < |chunks| :: chunks[i] != [] && IsTrimmed(chunks[i])
    ensures Collect(TrimAll(SingleLineChunks(chunks)) + rest, true, None) == Concat(chunks) + Collect(rest, true, None)
    decreases |chunks|
  {
    if chunks != [] {
      var c, more := chunks[0], SingleLineChunks(chunks[1..]);
      var size := Render(|c|, 16);
      assert SingleLineChunks(chunks) == [size + CRLF, c + CRLF] + more;
      OneLineChunk(size, c, more, rest);
      SingleLineChunksRead(chunks[1..], rest);
      calc {
        Collect(TrimAll(SingleLineChunks(chunks)) + rest, true, None);
        c + Collect(TrimAll(more) + rest, true, None);
        c + (Concat(chunks[1..]) + Collect(rest, true, None));
        (c + Concat(chunks[1..])) + Collect(rest, true, None);
      }
    } else {
      assert TrimAll(SingleLineChunks(chunks)) + rest == rest;
    }
  }

  /** A size line followed by exactly as much data on one line, both ended
      by CRLF: the data is appended and the next line is a size line. */
  lemma OneLineChunk(size: string, c: string, more: seq<string>, rest: seq<string>)
    requires HexDec(size) == |c| > 0 && IsTrimmed(size) && IsTrimmed(c)
    ensures Collect(TrimAll([size + CRLF, c + CRLF] + more) + rest, true, None) ==
      c + Collect(TrimAll(more) + rest, true, None)
  {
    var later := TrimAll(more) + rest;
    TrimPadded(size, CRLF);
    TrimPadded(c, CRLF);
    TrimAllAppend([size + CRLF, c + CRLF], more);
    assert TrimAll([size + CRLF, c + CRLF]) == [size, c];
    assert TrimAll([size + CRLF, c + CRLF] + more) + rest == [size] + ([c] + later);
    assert ([size] + ([c] + later))[1..] == [c] + later;
    assert ([c] + later)[1..] == later;
  }

  /** The approximation at work: a chunk of 6 octets that spans two lines
      (`ab`, CRLF, `cd`) loses its inner line break to `trim`, so its two
      lines use up only 4 of the budget and the closing `0` line and the
      final empty line are appended as data. */
  lemma MultiLineChunkAbsorbsTerminator()
    ensures BodyContent(["6" + CRLF, "ab" + CRLF, "cd" + CRLF, "0" + CRLF, CRLF], true) == "abcd0"
  {
    var lines := ["6" + CRLF, "ab" + CRLF, "cd" + CRLF, "0" + CRLF, CRLF];
    var texts := ["6", "ab", "cd", "0", ""];
    forall i | 0 <= i < 5
      ensures TrimAll(lines)[i] == texts[i]
    {
      assert lines[i] == texts[i] + CRLF;
      TrimPadded(texts[i], CRLF);
      TrimAllAt(lines, i);
    }
    assert TrimAll(lines) == texts;
    SixOctetsOnTwoLines();
  }

  lemma SixOctetsOnTwoLines()
    ensures Collect(["6", "ab", "cd", "0", ""], true, None) == "abcd0"
  {
    var texts := ["6", "ab", "cd", "0", ""];
    assert DigitsValue("6", 16) == 6;
    assert Collect(texts[4..], true, Some(1)) == "";
    assert Collect(texts[3..], true, Some(2)) == "0";
    assert Collect(texts[2..], true, Some(4)) == "cd0";
    assert Collect(texts[1..], true, Some(6)) == "abcd0";
  }
}

=== FILE: HttpClient.dfy ===
/** The client's public operations: `send` builds a request from a method, a
    URL, a body and headers, and `sendJson` does the same with a JSON body and
    JSON headers. The request is written to a connection and the response is
    read back. The connection is a parameter: a peer that accepts or refuses
    an endpoint and answers what is written to it with raw lines. */
module HttpClient {
  import opened Wrappers
  import opened Strings
  import OrderedMap
  import opened Primitives
  import opened HttpMessage
  import opened HttpRequestMethod
  import opened HttpRequest
  import opened HttpResponse
  import opened WireFormat
  import opened BodyReader
  import opened ResponseParser

  /** The other end of the socket: whether a connection to an endpoint
      opens, and the lines it answers to the text written to it. */
  datatype Peer = Peer(accepts: Endpoint -> bool, respond: (Endpoint, string) -> seq<string>)

  /** What one call does: the text written to the connection (None when no
      connection was opened) and the response or the error raised. */
  datatype Exchange = Exchange(written: Option<string>, outcome: Result<Response, HttpError>)

  /** The request `send` builds: method and URL checked by their setters,
      then the body, then each header assigned in order. */
  function BuildRequest(verb: string, url: string, body: Body, headers: Headers, parseUrl: string -> Option<UrlParts>): (res: Result<Request, HttpError>)
    ensures res.Success? <==> IsMethod(verb) && IsTruthy(parseUrl(ToLower(url)))
    ensures res.Failure? ==> res.error == InvalidRequest
    ensures res.Success? ==>
      && res.value.httpMethod == verb && res.value.url == ToLower(url)
      && res.value.message.body == body
      && forall n :: OrderedMap.Lookup(res.value.message.headers, n) == OrderedMap.LastValue(headers, n)
    ensures res.Success? ==> HttpRequest.Valid(res.value)
  {
    var r :- WithMethod(NewRequest(), verb);
    var r' :- WithUrl(r, url, parseUrl);
    var message := WithHeaders(WithBody(r'.message, body), headers);
    assert forall n :: OrderedMap.Lookup(message.headers, n) == OrderedMap.LastValue(headers, n) by {
      forall n ensures OrderedMap.Lookup(message.headers, n) == OrderedMap.LastValue(headers, n) {
        OrderedMap.LookupInsertAll([], headers, n);
      }
    }
    Success(r'.(message := message))
  }

  /** Sends a built request to a target: a refused connection is a
      ConnectionError with nothing written; otherwise the request text is
      written and the answer parsed. */
  function Deliver(r: Request, t: Target, env: Env, peer: Peer): (e: Exchange)
    ensures e.written.None? <==> !peer.accepts(t.endpoint)
    ensures e.written.None? ==> e.outcome == Failure(ConnectionError)
    ensures e.written.Some? ==>
      && e.written.value == WireRequest(r.httpMethod, t, r.message.headers, BodyText(r.message.body, env.jsonEncode))
      && e.outcome == ParseResponse(peer.respond(t.endpoint, e.written.value), env.jsonDecode)
  {
    if !peer.accepts(t.endpoint) then Exchange(None, Failure(ConnectionError))
    else
      var wire := WireRequest(r.httpMethod, t, r.message.headers, BodyText(r.message.body, env.jsonEncode));
      Exchange(Some(wire), ParseResponse(peer.respond(t.endpoint, wire), env.jsonDecode))
  }

  /** Sends a built request to the endpoint the URL's components give. */
  function Transmit(r: Request, env: Env, peer: Peer): (e: Exchange)
    ensures var t := ConnectionTarget(env.parseUrl(r.url));
      && (e.written.None? <==> !peer.accepts(t.endpoint))
      && (e.written.None? ==> e.outcome == Failure(ConnectionError))
      && (e.written.Some? ==>
            && e.written.value == WireRequest(r.httpMethod, t, r.message.headers, BodyText(r.message.body, env.jsonEncode))
            && e.outcome == ParseResponse(peer.respond(t.endpoint, e.written.value), env.jsonDecode))
  {
    Deliver(r, ConnectionTarget(env.parseUrl(r.url)), env, peer)
  }

  /** Sending as the code is written, to ConnectionTargetAsWritten. The
      socket call first checks its arguments: a text port, where it takes an
      integer, or an address naming a transport PHP does not register (as
      every `http://` address does) is refused before any connection is
      tried; `fsockopen` returns no stream, and the RuntimeException that
      follows is a ConnectionError. An endpoint it takes is sent to as in
      Transmit. */
  function TransmitAsWritten(r: Request, env: Env, peer: Peer): (e: Exchange)
    ensures var t := ConnectionTargetAsWritten(env.parseUrl(r.url));
      && (!SocketTakes(t.endpoint) ==> e == Exchange(None, Failure(ConnectionError)))
      && (SocketTakes(t.endpoint) ==>
            && (e.written.None? <==> !peer.accepts(t.endpoint))
            && (e.written.None? ==> e.outcome == Failure(ConnectionError))
            && (e.written.Some? ==>
                  e.written.value == WireRequest(r.httpMethod, t, r.message.headers, BodyText(r.message.body, env.jsonEncode))))
  {
    var t := ConnectionTargetAsWritten(env.parseUrl(r.url));
    if !SocketTakes(t.endpoint) then Exchange(None, Failure(ConnectionError))
    else Deliver(r, t, env, peer)
  }

  /** A URL that is not https and names a port never gets a request out as
      written, whatever the peer; with the port passed as a number the same
      request is written to any peer that accepts the endpoint. */
  lemma ExplicitPortNeverConnects(r: Request, env: Env, peer: Peer)
    requires env.parseUrl(r.url).GetOr(NoParts).scheme != Some("https")
    requires env.parseUrl(r.url).GetOr(NoParts).port.Some?
    ensures TransmitAsWritten(r, env, peer) == Exchange(None, Failure(ConnectionError))
    ensures ConnectionTarget(env.parseUrl(r.url)).endpoint.port ==
      PortNumber(env.parseUrl(r.url).GetOr(NoParts).port.value)
    ensures peer.accepts(ConnectionTarget(env.parseUrl(r.url)).endpoint) ==> Transmit(r, env, peer).written.Some?
  {
  }

  /** A URL whose scheme is no socket transport, `http` among them, never
      gets a request out as written, whatever the peer; the corrected target
      drops the scheme, so the request goes over plain tcp and is written to
      any peer that accepts the endpoint. */
  lemma UnknownTransportNeverConnects(r: Request, env: Env, peer: Peer)
    requires var s := env.parseUrl(r.url).GetOr(NoParts).scheme;
      s.Some? && |s.value| > 1 && s.value !in Transports && s.value != "https"
      && forall k | 0 <= k < |s.value| :: IsSchemeChar(s.value[k])
    ensures TransmitAsWritten(r, env, peer) == Exchange(None, Failure(ConnectionError))
    ensures ConnectionTarget(env.parseUrl(r.url)).endpoint.hostname == ConnectionTarget(env.parseUrl(r.url)).host
    ensures peer.accepts(ConnectionTarget(env.parseUrl(r.url)).endpoint) ==> Transmit(r, env, peer).written.Some?
  {
    UnknownTransportIsRefused(env.parseUrl(r.url));
  }

  /** `send`: an unknown method or a URL `parse_url` rejects is an
      InvalidRequest and nothing is written; a refused connection is a
      ConnectionError and nothing is written; otherwise the request is
      written and the outcome is whatever the answer parses to, which is
      never an InvalidRequest or ConnectionError. */
  function Send(verb: string, url: string, body: string, headers: Headers, env: Env, peer: Peer): (e: Exchange)
    ensures e.outcome == Failure(InvalidRequest) <==> !IsMethod(verb) || !IsTruthy(env.parseUrl(ToLower(url)))
    ensures e.outcome == Failure(InvalidRequest) ==> e.written.None?
    ensures e.outcome == Failure(ConnectionError) <==>
      && IsMethod(verb) && IsTruthy(env.parseUrl(ToLower(url)))
      && !peer.accepts(ConnectionTarget(env.parseUrl(ToLower(url))).endpoint)
    ensures e.outcome == Failure(ConnectionError) ==> e.written.None?
    ensures e.written.Some? <==>
      && IsMethod(verb) && IsTruthy(env.parseUrl(ToLower(url)))
      && peer.accepts(ConnectionTarget(env.parseUrl(ToLower(url))).endpoint)
  {
    match BuildRequest(verb, url, Text(body), headers, env.parseUrl)
    case Failure(err) => Exchange(None, Failure(err))
    case Success(r) => Transmit(r, env, peer)
  }

  /** The two headers `sendJson` adds, in this order. */
  const JsonHeaders: Headers := [("Content-type", Some(JsonMediaType)), ("Accept", Some(JsonMediaType))]

  /** `sendJson`: the body is `json_encode`d and the JSON headers are merged
      over the caller's (`array_merge`: a key already present keeps its
      place and takes the new value), then the call is `send`'s. */
  function SendJson(verb: string, url: string, body: Json, headers: Headers, env: Env, peer: Peer): Exchange {
    Send(verb, url, env.jsonEncode(body), OrderedMap.InsertAll(headers, JsonHeaders), env, peer)
  }

  /** The text `send` writes: the request line with the method, the URL's
      path and query, the Host line, each header with its last assigned
      value, the length of the body, `Connection: close`, the blank line and
      the body. */
  lemma SendWrites(verb: string, url: string, body: string, headers: Headers, env: Env, peer: Peer)
    requires Send(verb, url, body, headers, env, peer).written.Some?
    ensures var t := ConnectionTarget(env.parseUrl(ToLower(url)));
      Send(verb, url, body, headers, env, peer).written ==
        Some(WireRequest(verb, t, OrderedMap.InsertAll([], headers), body))
      && Send(verb, url, body, headers, env, peer).outcome ==
        ParseResponse(peer.respond(t.endpoint, WireRequest(verb, t, OrderedMap.InsertAll([], headers), body)), env.jsonDecode)
  {
  }

  /** Headers given with distinct names are written in the given order,
      one line each, between the Host line and Content-length. */
  lemma SendWritesHeadersInOrder(verb: string, url: string, body: string, headers: Headers, env: Env, peer: Peer)
    requires Send(verb, url, body, headers, env, peer).written.Some?
    requires OrderedMap.Valid(headers)
    ensures var t := ConnectionTarget(env.parseUrl(ToLower(url)));
      Send(verb, url, body, headers, env, peer).written == Some(WireRequest(verb, t, headers, body))
  {
    SendWrites(verb, url, body, headers, env, peer);
    OrderedMap.InsertAllDistinct(headers);
  }

  /** What `sendJson` writes: the encoded body, and the caller's headers
      (a PHP array, so their names are distinct) in their order, followed by
      those of `Content-type` and `Accept` that are new, with both set to
      `application/json` whatever the caller gave for them.
      Every other caller header is sent as given; a caller's `Content-Type`,
      spelled with a capital T, is a different key and is sent as well. */
  lemma SendJsonWrites(verb: string, url: string, body: Json, headers: Headers, env: Env, peer: Peer, name: string)
    requires OrderedMap.Valid(headers)
    requires SendJson(verb, url, body, headers, env, peer).written.Some?
    ensures exists sent: Headers ::
      && SendJson(verb, url, body, headers, env, peer).written ==
           Some(WireRequest(verb, ConnectionTarget(env.parseUrl(ToLower(url))), sent, env.jsonEncode(body)))
      && OrderedMap.Keys(sent) == OrderedMap.Keys(headers)
           + (if "Content-type" in OrderedMap.Keys(headers) then [] else ["Content-type"])
           + (if "Accept" in OrderedMap.Keys(headers) then [] else ["Accept"])
      && OrderedMap.Lookup(sent, "Content-type") == Some(Some(JsonMediaType))
      && OrderedMap.Lookup(sent, "Accept") == Some(Some(JsonMediaType))
      && (name != "Content-type" && name != "Accept" ==> OrderedMap.Lookup(sent, name) == OrderedMap.Lookup(headers, name))
  {
    var merged := OrderedMap.InsertAll(headers, JsonHeaders);
    SendWrites(verb, url, env.jsonEncode(body), merged, env, peer);
    OrderedMap.InsertAllValid(headers, JsonHeaders);
    OrderedMap.InsertAllDistinct(merged);
    JsonHeadersMerge(headers, "Content-type");
    JsonHeadersMerge(headers, "Accept");
    JsonHeadersMerge(headers, name);
    JsonHeadersKeys(headers);
  }

  /** `array_merge` keeps the caller's names in their order and appends the
      JSON names that are new, `Content-type` before `Accept`. */
  lemma JsonHeadersKeys(headers: Headers)
    ensures OrderedMap.Keys(OrderedMap.InsertAll(headers, JsonHeaders)) == OrderedMap.Keys(headers)
      + (if "Content-type" in OrderedMap.Keys(headers) then [] else ["Content-type"])
      + (if "Accept" in OrderedMap.Keys(headers) then [] else ["Accept"])
  {
    var first := OrderedMap.Insert(headers, "Content-type", Some(JsonMediaType));
    var second := OrderedMap.Insert(first, "Accept", Some(JsonMediaType));
    assert OrderedMap.InsertAll(headers, JsonHeaders) == second by {
      var tail := JsonHeaders[1..];
      assert tail == [("Accept", Some(JsonMediaType))] && tail[1..] == [];
      assert OrderedMap.InsertAll(headers, JsonHeaders) == OrderedMap.InsertAll(first, tail);
      assert OrderedMap.InsertAll(first, tail) == OrderedMap.InsertAll(second, []);
    }
    OrderedMap.InsertKeys(headers, "Content-type", Some(JsonMediaType));
    OrderedMap.InsertKeys(first, "Accept", Some(JsonMediaType));
    assert "Accept" in OrderedMap.Keys(first) <==> "Accept" in OrderedMap.Keys(headers);
  }

  /** Merging the JSON headers into the caller's. */
  lemma JsonHeadersMerge(headers: Headers, n: string)
    ensures OrderedMap.Lookup(OrderedMap.InsertAll(headers, JsonHeaders), n) ==
      if n == "Content-type" || n == "Accept" then Some(Some(JsonMediaType)) else OrderedMap.Lookup(headers, n)
  {
    OrderedMap.LookupInsertAll(headers, JsonHeaders, n);
    JsonHeadersLastValue(n);
  }

  lemma JsonHeadersLastValue(n: string)
    ensures OrderedMap.LastValue(JsonHeaders, n) ==
      if n == "Content-type" || n == "Accept" then Some(Some(JsonMediaType)) else None
  {
    var first := JsonHeaders[..1];
    assert first == [("Content-type", Some(JsonMediaType))];
    assert OrderedMap.LastValue(first, n) == if n == "Content-type" then Some(Some(JsonMediaType)) else None by {
      assert first[..0] == [];
    }
    assert |"Content-type"| != |"Accept"|;
  }

  /** A peer that accepts every connection and answers every request with
      the same lines. */
  function CannedPeer(answer: seq<string>): (p: Peer)
    ensures forall e, w :: p.accepts(e) && p.respond(e, w) == answer
  {
    Peer(_ => true, (_, _) => answer)
  }

  /** End to end: a valid call to a server that answers with a status that
      is no error, distinct sendable headers that ask for neither chunking
      nor JSON, and a body, returns that status, that reason, those headers
      and the body lines trimmed and joined. */
  lemma SendReceivesResponse(verb: string, url: string, body: string, headers: Headers, env: Env,
                             code: string, reason: string, h: Headers, bodyLines: seq<string>)
    requires IsMethod(verb) && IsTruthy(env.parseUrl(ToLower(url)))
    requires ' ' !in code && ' ' !in reason && reason != [] && IsTrimmed(reason)
    requires '\n' !in code && '\n' !in reason && forall i | 0 <= i < |bodyLines| :: IsRawLine(bodyLines[i])
    requires !Leads(Some(code), '4') && !Leads(Some(code), '5')
    requires OrderedMap.Valid(h) && forall i | 0 <= i < |h| :: SendableField(h[i])
    requires OrderedMap.Lookup(h, "Transfer-Encoding") != Some(Some("chunked"))
    requires !IsJsonType(OrderedMap.Lookup(h, "Content-Type").GetOr(None))
    ensures Send(verb, url, body, headers, env, CannedPeer(ResponseLines(code, reason, h, bodyLines))).outcome ==
      Success(Response(Message(Text(Concat(TrimAll(bodyLines))), h, Protocol), Some(code), Some(reason)))
  {
    var peer := CannedPeer(ResponseLines(code, reason, h, bodyLines));
    SendWrites(verb, url, body, headers, env, peer);
    ResponseRoundTrip(code, reason, h, bodyLines, env.jsonDecode);
  }
}

=== FILE: HttpMessage.dfy ===
/** The part requests and responses share: a body, an ordered header map
    and the protocol, which is always HTTP/1.1. */
module HttpMessage {
  import opened Wrappers
  import OrderedMap
  import opened Primitives

  const Protocol: string := "HTTP/1.1"

  /** A body is text, or a structured value that is JSON-encoded when sent. */
  datatype Body = Text(text: string) | Structured(value: Json)

  /** Header values are strings, or None for PHP's `null` (a response header
      line without `": "` stores one). */
  type Headers = OrderedMap.Map<Option<string>>

  datatype Message = Message(body: Body, headers: Headers, protocol: string)

  /** Every message carries HTTP/1.1 and header names that are distinct. */
  predicate Valid(m: Message) {
    m.protocol == Protocol && OrderedMap.Valid(m.headers)
  }

  /** A new message: empty text body, no headers, HTTP/1.1. */
  function NewMessage(): (m: Message)
    ensures Valid(m)
    ensures m.body == Text("") && m.headers == []
  {
    Message(Text(""), [], Protocol)
  }

  /** `withBody`: the body is replaced, headers and protocol are kept. */
  function WithBody(m: Message, b: Body): (r: Message)
    ensures r.body == b
    ensures r.headers == m.headers && r.protocol == m.protocol
    ensures Valid(m) ==> Valid(r)
  {
    m.(body := b)
  }

  /** `withHeader`: `name` now maps to `value`, every other header is as
      before, and body and protocol are kept. */
  function WithHeader(m: Message, name: string, value: Option<string>): (r: Message)
    ensures OrderedMap.Lookup(r.headers, name) == Some(value)
    ensures forall n | n != name :: OrderedMap.Lookup(r.headers, n) == OrderedMap.Lookup(m.headers, n)
    ensures r.body == m.body && r.protocol == m.protocol
    ensures Valid(m) ==> Valid(r)
  {
    var r := m.(headers := OrderedMap.Insert(m.headers, name, value));
    OrderedMap.InsertLookup(m.headers, name, value);
    assert Valid(m) ==> Valid(r) by {
      if Valid(m) {
        OrderedMap.InsertInPlace(m.headers, name, value);
      }
    }
    r
  }

  /** The value of `n` once `pairs` are assigned over `before`: that of its
      last pair, or the earlier one when no pair has that name. */
  function AfterAssigning(pairs: Headers, before: Headers, n: string): Option<Option<string>> {
    if OrderedMap.LastValue(pairs, n).Some? then OrderedMap.LastValue(pairs, n) else OrderedMap.Lookup(before, n)
  }

  /** `withHeader` for each pair in turn. */
  function WithHeaders(m: Message, pairs: Headers): (r: Message)
    ensures forall n :: OrderedMap.Lookup(r.headers, n) == AfterAssigning(pairs, m.headers, n)
    ensures r.body == m.body && r.protocol == m.protocol
    ensures Valid(m) ==> Valid(r)
  {
    var r := m.(headers := OrderedMap.InsertAll(m.headers, pairs));
    assert forall n :: OrderedMap.Lookup(r.headers, n) == AfterAssigning(pairs, m.headers, n) by {
      forall n ensures OrderedMap.Lookup(r.headers, n) == AfterAssigning(pairs, m.headers, n) {
        OrderedMap.LookupInsertAll(m.headers, pairs, n);
      }
    }
    assert Valid(m) ==> Valid(r) by {
      if Valid(m) {
        OrderedMap.InsertAllValid(m.headers, pairs);
      }
    }
    r
  }

  /** The value stored under exactly `name`, or None when the header is
      absent or holds `null` (`$headers[$name] ?? null`). */
  function GetHeader(m: Message, name: string): (v: Option<string>)
    ensures OrderedMap.Lookup(m.headers, name).Some? ==> Some(v) == OrderedMap.Lookup(m.headers, name)
    ensures OrderedMap.Lookup(m.headers, name).None? ==> v.None?
  {
    match OrderedMap.Lookup(m.headers, name)
    case Some(x) => x
    case None => None
  }

  /** Setting the same name twice keeps only the second value, at the
      place where the name was first set or already stood. */
  lemma LastWriteWins(m: Message, name: string, first: Option<string>, second: Option<string>)
    ensures WithHeader(WithHeader(m, name, first), name, second).headers == WithHeader(m, name, second).headers
    decreases |m.headers|
  {
    InsertTwice(m.headers, name, first, second);
  }

  lemma {:induction false} InsertTwice(h: Headers, name: string, first: Option<string>, second: Option<string>)
    ensures OrderedMap.Insert(OrderedMap.Insert(h, name, first), name, second) == OrderedMap.Insert(h, name, second)
    decreases |h|
  {
    if h != [] && h[0].0 != name {
      InsertTwice(h[1..], name, first, second);
    }
  }

  /** Header names are compared exactly, case included: a name that differs
      from another only in case is a header of its own, and assigning it
      leaves the other's value alone. */
  lemma CaseVariantsAreDistinctHeaders(m: Message, a: Option<string>, b: Option<string>)
    ensures var r := WithHeader(WithHeader(m, "Content-Type", a), "content-type", b);
      GetHeader(r, "Content-Type") == a && GetHeader(r, "content-type") == b
  {
  }

  /** Reading a header back after setting it gives the value set. */
  lemma GetHeaderAfterWithHeader(m: Message, name: string, value: Option<string>)
    ensures GetHeader(WithHeader(m, name, value), name) == value
  {
  }
}

=== FILE: HttpRequest.dfy ===
/** An outgoing request: a message plus a method from the closed set and a
    lower-cased URL. Setters return a new request or the error the PHP code
    throws; on an error the caller's request is, being a value, unchanged. */
module HttpRequest {
  import opened Wrappers
  import opened Strings
  import opened Primitives
  import opened HttpMessage
  import opened HttpRequestMethod

  datatype Request = Request(message: Message, httpMethod: string, url: string)

  /** A request as the setters keep it: a valid message, a method from the
      set and a URL without upper-case letters. */
  predicate Valid(r: Request) {
    HttpMessage.Valid(r.message) && IsMethod(r.httpMethod) && IsLowerCase(r.url)
  }

  /** A new request: method GET, empty URL, empty body, no headers. */
  function NewRequest(): (r: Request)
    ensures Valid(r)
    ensures r.httpMethod == GET && r.url == ""
    ensures r.message.body == Text("") && r.message.headers == []
  {
    Request(NewMessage(), GET, "")
  }

  /** `withMethod`: succeeds exactly for a member of the method set, storing
      it unchanged and leaving everything else as it was. */
  function WithMethod(r: Request, m: string): (res: Result<Request, HttpError>)
    ensures res.Success? <==> IsMethod(m)
    ensures res.Success? ==> res.value.httpMethod == m && res.value.url == r.url && res.value.message == r.message
    ensures res.Failure? ==> res.error == InvalidRequest
    ensures Valid(r) && res.Success? ==> Valid(res.value)
  {
    if IsMethod(m) then Success(r.(httpMethod := m)) else Failure(InvalidRequest)
  }

  /** `withUrl`: the URL is lower-cased and then handed to `parse_url`;
      a falsy result is rejected, otherwise the lower-cased URL is stored
      and nothing else changes. */
  function WithUrl(r: Request, url: string, parseUrl: string -> Option<UrlParts>): (res: Result<Request, HttpError>)
    ensures res.Success? <==> IsTruthy(parseUrl(ToLower(url)))
    ensures res.Success? ==> res.value.url == ToLower(url) && IsLowerCase(res.value.url)
    ensures res.Success? ==> res.value.httpMethod == r.httpMethod && res.value.message == r.message
    ensures res.Failure? ==> res.error == InvalidRequest
    ensures Valid(r) && res.Success? ==> Valid(res.value)
  {
    var lower := ToLower(url);
    if IsTruthy(parseUrl(lower)) then Success(r.(url := lower)) else Failure(InvalidRequest)
  }

  /** A URL already in lower case is stored as given, so reading it back
      returns the argument. */
  lemma WithUrlKeepsLowerCaseUrl(r: Request, url: string, parseUrl: string -> Option<UrlParts>)
    requires IsLowerCase(url) && IsTruthy(parseUrl(url))
    ensures WithUrl(r, url, parseUrl) == Success(r.(url := url))
  {
  }

  /** Setting the same URL twice has the effect of setting it once. */
  lemma WithUrlIdempotent(r: Request, url: string, parseUrl: string -> Option<UrlParts>)
    requires WithUrl(r, url, parseUrl).Success?
    ensures WithUrl(WithUrl(r, url, parseUrl).value, url, parseUrl) == WithUrl(r, url, parseUrl)
  {
  }

  /** `///`, which `parse_url` rejects, is refused with InvalidRequest. */
  lemma TripleSlashIsRejected(r: Request, parseUrl: string -> Option<UrlParts>)
    requires parseUrl("///").None?
    ensures WithUrl(r, "///", parseUrl) == Failure(InvalidRequest)
  {
    assert IsLowerCase("///");
  }
}

=== FILE: HttpRequestMethod.dfy ===
/** The closed set of request methods a request may carry. */
module HttpRequestMethod {
  import opened Strings

  const GET: string := "GET"
  const HEAD: string := "HEAD"
  const POST: string := "POST"
  const PUT: string := "PUT"
  const DELETE: string := "DELETE"
  const CONNECT: string := "CONNECT"
  const OPTIONS: string := "OPTIONS"
  const TRACE: string := "TRACE"
  const PATCH: string := "PATCH"

  predicate IsUpperCaseWord(s: string) {
    s != [] && forall k | 0 <= k < |s| :: 'A' <= s[k] <= 'Z'
  }

  /** The nine method tokens in declaration order: pairwise distinct, each a
      non-empty word of upper-case letters. */
  function AllMethods(): (ms: seq<string>)
    ensures ms == [GET, HEAD, POST, PUT, DELETE, CONNECT, OPTIONS, TRACE, PATCH]
    ensures forall i, j | 0 <= i < j < |ms| :: ms[i] != ms[j]
    ensures forall i | 0 <= i < |ms| :: IsUpperCaseWord(ms[i])
  {
    [GET, HEAD, POST, PUT, DELETE, CONNECT, OPTIONS, TRACE, PATCH]
  }

  /** Strict membership, as `in_array($m, getAllMethods(), true)`. */
  predicate IsMethod(m: string) {
    m in AllMethods()
  }

  /** Membership is case-sensitive: lower-casing a method, e.g. `get`,
      never gives a method. */
  lemma LowerCasedIsNotAMethod(m: string)
    requires IsMethod(m)
    ensures !IsMethod(ToLower(m))
  {
    var lower := ToLower(m);
    assert 'a' <= lower[0] <= 'z';
    forall i | 0 <= i < 9 ensures AllMethods()[i] != lower {
      assert IsUpperCaseWord(AllMethods()[i]);
    }
  }

  /** The set is closed: tokens outside the nine, such as `INVALID` or
      `get`, are not methods. */
  lemma OutsideTokensAreNotMethods()
    ensures !IsMethod("INVALID")
    ensures !IsMethod("get")
  {
    LowerCasedIsNotAMethod(GET);
    assert ToLower(GET) == "get";
  }
}

=== FILE: HttpResponse.dfy ===
/** An incoming response: a message plus the status code and reason phrase,
    both unset (None) until their setters run. */
module HttpResponse {
  import opened Wrappers
  import opened HttpMessage

  datatype Response = Response(message: Message, statusCode: Option<string>, reasonPhrase: Option<string>)

  /** A new response: no status code, no reason phrase, empty message. */
  function NewResponse(): (r: Response)
    ensures r.statusCode.None? && r.reasonPhrase.None?
    ensures HttpMessage.Valid(r.message)
    ensures r.message.body == Text("") && r.message.headers == []
  {
    Response(NewMessage(), None, None)
  }

  /** `withStatusCode`: the code is stored as given, without any numeric
      check (None is PHP's `null`, which the parser passes on when the
      status line has no second token); reason phrase, headers and body are
      kept. */
  function WithStatusCode(r: Response, code: Option<string>): (q: Response)
    ensures q.statusCode == code
    ensures q.reasonPhrase == r.reasonPhrase && q.message == r.message
  {
    r.(statusCode := code)
  }

  /** `withReasonPhrase`: the phrase is stored as given; status code,
      headers and body are kept. */
  function WithReasonPhrase(r: Response, phrase: Option<string>): (q: Response)
    ensures q.reasonPhrase == phrase
    ensures q.statusCode == r.statusCode && q.message == r.message
  {
    r.(reasonPhrase := phrase)
  }
}

=== FILE: Numerals.dfy ===
/** Digit strings: the decimal rendering PHP uses when an integer meets a
    string (`strlen($body)` in `Content-length`, the port after `':'`), and
    PHP's `hexdec`, which reads the hexadecimal digits of a string and
    silently skips every other character. */
module Numerals {
  import opened Wrappers
  import opened Strings

  /** The value of a digit in bases up to 16, letters in either case. */
  function DigitValue(c: char): (d: Option<nat>)
    ensures d.Some? ==> d.value < 16 && !IsBlank(c)
    ensures d == Some(0) <==> c == '0'
  {
    if '0' <= c <= '9' then Some(c as int - '0' as int)
    else if 'a' <= c <= 'f' then Some(c as int - 'a' as int + 10)
    else if 'A' <= c <= 'F' then Some(c as int - 'A' as int + 10)
    else None
  }

  predicate IsDigit(c: char, base: nat) {
    DigitValue(c).Some? && DigitValue(c).value < base
  }

  /** The lower-case digit character for `d`. */
  function DigitChar(d: nat): (c: char)
    requires d < 16
    ensures DigitValue(c) == Some(d)
  {
    if d < 10 then (d + '0' as int) as char else (d - 10 + 'a' as int) as char
  }

  /** The number written by the base-`base` digits of `s`, most significant
      first; characters that are not such digits are skipped. */
  function DigitsValue(s: string, base: nat): nat
    requires 2 <= base <= 16
  {
    if s == [] then 0
    else
      var c := s[|s| - 1];
      if IsDigit(c, base) then DigitsValue(s[..|s| - 1], base) * base + DigitValue(c).value
      else DigitsValue(s[..|s| - 1], base)
  }

  /** PHP `hexdec`. */
  function HexDec(s: string): nat {
    DigitsValue(s, 16)
  }

  /** The digits of `n` in base `base`, without leading zeros; reading them
      back gives `n`. */
  function Render(n: nat, base: nat): (s: string)
    requires 2 <= base <= 16
    ensures s != [] && IsTrimmed(s)
    ensures forall k | 0 <= k < |s| :: IsDigit(s[k], base)
    ensures DigitsValue(s, base) == n
    ensures s[0] == '0' <==> n == 0
    decreases n
  {
    if n < base then [DigitChar(n)]
    else
      var q, d := n / base, n % base;
      DivideByBase(n, base);
      var init := Render(q, base);
      var s := init + [DigitChar(d)];
      assert s[..|s| - 1] == init;
      assert s[0] == init[0];
      assert DigitsValue(s, base) == DigitsValue(init, base) * base + d;
      s
  }

  lemma DivideByBase(n: nat, base: nat)
    requires 2 <= base <= n
    ensures (n / base) * base + n % base == n
    ensures 1 <= n / base < n && n % base < base
  {
  }

  /** PHP's decimal rendering of a non-negative integer. */
  function Decimal(n: nat): string {
    Render(n, 10)
  }

  /** `hexdec` yields 0 exactly when every hexadecimal digit in the text is
      `0`, in particular for a text with no digit at all, such as `""`. */
  lemma {:induction false} HexDecZeroIff(s: string)
    ensures HexDec(s) == 0 <==> forall k | 0 <= k < |s| && IsDigit(s[k], 16) :: s[k] == '0'
    decreases |s|
  {
    if s != [] {
      var init := s[..|s| - 1];
      HexDecZeroIff(init);
      assert forall k | 0 <= k < |init| :: init[k] == s[k];
    }
  }
}

=== FILE: OrderedMap.dfy ===
/** PHP arrays with string keys, as the client uses them for headers: an
    ordered map whose entries keep the order in which their keys were first
    assigned; assigning to a key that is present replaces its value in place. */
module OrderedMap {
  import opened Wrappers

  type Map<V> = seq<(string, V)>

  function Keys<V>(m: Map<V>): (ks: seq<string>)
    ensures |ks| == |m|
    ensures forall i | 0 <= i < |m| :: ks[i] == m[i].0
  {
    if m == [] then [] else [m[0].0] + Keys(m[1..])
  }

  /** No key occurs twice, as in every PHP array. */
  predicate Valid<V>(m: Map<V>) {
    forall i, j | 0 <= i < j < |m| :: m[i].0 != m[j].0
  }

  /** `$m[$k]`, or None when the key is absent. */
  function Lookup<V>(m: Map<V>, k: string): (r: Option<V>)
    ensures r.None? <==> k !in Keys(m)
    ensures r.Some? ==> (k, r.value) in m
  {
    if m == [] then None
    else if m[0].0 == k then Some(m[0].1)
    else Lookup(m[1..], k)
  }

  /** `$m[$k] = $v`: a present key has its value replaced where it stands,
      a new key is appended at the end. */
  function Insert<V>(m: Map<V>, k: string, v: V): Map<V> {
    if m == [] then [(k, v)]
    else if m[0].0 == k then [(k, v)] + m[1..]
    else [m[0]] + Insert(m[1..], k, v)
  }

  /** After assigning, `k` maps to `v` and every other key to what it
      mapped to before. */
  lemma {:induction false} InsertLookup<V>(m: Map<V>, k: string, v: V)
    ensures Lookup(Insert(m, k, v), k) == Some(v)
    ensures forall j | j != k :: Lookup(Insert(m, k, v), j) == Lookup(m, j)
    decreases |m|
  {
    if m != [] && m[0].0 != k {
      var t := Insert(m[1..], k, v);
      InsertLookup(m[1..], k, v);
      assert ([m[0]] + t)[0] == m[0] && ([m[0]] + t)[1..] == t;
    } else if m != [] {
      assert ([(k, v)] + m[1..])[1..] == m[1..];
    }
  }

  /** Assigning keeps the key order: a present key stays where it is, a new
      key is appended together with its value. */
  lemma InsertKeys<V>(m: Map<V>, k: string, v: V)
    ensures Keys(Insert(m, k, v)) == if k in Keys(m) then Keys(m) else Keys(m) + [k]
    ensures k !in Keys(m) ==> Insert(m, k, v) == m + [(k, v)]
  {
    if k in Keys(m) {
      InsertPresent(m, k, v);
    } else {
      InsertNew(m, k, v);
      KeysSnoc(m, (k, v));
    }
  }

  lemma KeysSnoc<V>(m: Map<V>, p: (string, V))
    ensures Keys(m + [p]) == Keys(m) + [p.0]
  {
    assert forall i | 0 <= i < |m| :: (m + [p])[i] == m[i];
  }

  lemma {:induction false} InsertNew<V>(m: Map<V>, k: string, v: V)
    requires k !in Keys(m)
    ensures Insert(m, k, v) == m + [(k, v)]
    decreases |m|
  {
    if m != [] {
      assert Keys(m) == [m[0].0] + Keys(m[1..]);
      assert m[0].0 != k && k !in Keys(m[1..]);
      InsertNew(m[1..], k, v);
      assert Insert(m, k, v) == [m[0]] + Insert(m[1..], k, v);
      assert [m[0]] + (m[1..] + [(k, v)]) == m + [(k, v)];
    }
  }

  lemma {:induction false} InsertPresent<V>(m: Map<V>, k: string, v: V)
    requires k in Keys(m)
    ensures Keys(Insert(m, k, v)) == Keys(m)
    decreases |m|
  {
    assert Keys(m) == [m[0].0] + Keys(m[1..]);
    if m[0].0 != k {
      InsertPresent(m[1..], k, v);
      assert Keys([m[0]] + Insert(m[1..], k, v)) == [m[0].0] + Keys(Insert(m[1..], k, v));
    } else {
      assert Keys([(k, v)] + m[1..]) == [k] + Keys(m[1..]);
    }
  }

  /** Assigning keeps the keys distinct, and a present key is overwritten
      at its own position. */
  lemma InsertInPlace<V>(m: Map<V>, k: string, v: V)
    requires Valid(m)
    ensures Valid(Insert(m, k, v))
    ensures forall i | 0 <= i < |m| && m[i].0 == k :: Insert(m, k, v) == m[i := (k, v)]
  {
    forall i | 0 <= i < |m| && m[i].0 == k
      ensures Insert(m, k, v) == m[i := (k, v)]
    {
      InsertPosition(m, k, v, i);
    }
    if k in Keys(m) {
      var i :| 0 <= i < |m| && Keys(m)[i] == k;
      InsertPosition(m, k, v, i);
      ValidReplace(m, i, v);
    } else {
      InsertNew(m, k, v);
      ValidAppend(m, (k, v));
    }
  }

  lemma ValidReplace<V>(m: Map<V>, i: nat, v: V)
    requires Valid(m) && i < |m|
    ensures Valid(m[i := (m[i].0, v)])
  {
    var r := m[i := (m[i].0, v)];
    assert forall j | 0 <= j < |m| :: r[j].0 == m[j].0;
  }

  lemma ValidAppend<V>(m: Map<V>, p: (string, V))
    requires Valid(m) && p.0 !in Keys(m)
    ensures Valid(m + [p])
  {
    var r := m + [p];
    assert forall j | 0 <= j < |m| :: r[j] == m[j] && Keys(m)[j] == m[j].0;
  }

  lemma {:induction false} InsertPosition<V>(m: Map<V>, k: string, v: V, i: nat)
    requires Valid(m) && i < |m| && m[i].0 == k
    ensures Insert(m, k, v) == m[i := (k, v)]
    decreases i
  {
    if i > 0 {
      assert m[0].0 != k;
      assert m[1..][i - 1] == m[i];
      InsertPosition(m[1..], k, v, i - 1);
      assert m[1..][i - 1 := (k, v)] == m[i := (k, v)][1..];
    }
  }

  /** Assigns the pairs one after another, as `foreach ($ps as $k => $v) $m[$k] = $v`
      and as PHP's `array_merge($m, $ps)` for string keys. */
  function InsertAll<V>(m: Map<V>, ps: seq<(string, V)>): Map<V>
    decreases |ps|
  {
    if ps == [] then m else InsertAll(Insert(m, ps[0].0, ps[0].1), ps[1..])
  }

  /** The value of the last pair in `ps` with key `k`. */
  function LastValue<V>(ps: seq<(string, V)>, k: string): Option<V>
    decreases |ps|
  {
    if ps == [] then None
    else if ps[|ps| - 1].0 == k then Some(ps[|ps| - 1].1)
    else LastValue(ps[..|ps| - 1], k)
  }

  lemma {:induction false} InsertAllSnoc<V>(m: Map<V>, ps: seq<(string, V)>, p: (string, V))
    ensures InsertAll(m, ps + [p]) == Insert(InsertAll(m, ps), p.0, p.1)
    decreases |ps|
  {
    if ps == [] {
      assert ps + [p] == [p];
    } else {
      assert (ps + [p])[1..] == ps[1..] + [p];
      InsertAllSnoc(Insert(m, ps[0].0, ps[0].1), ps[1..], p);
    }
  }

  /** Last write wins: after assigning the pairs, a key maps to the value of
      its last pair, and a key without pairs keeps its earlier value. */
  lemma {:induction false} LookupInsertAll<V>(m: Map<V>, ps: seq<(string, V)>, k: string)
    ensures Lookup(InsertAll(m, ps), k) == (if LastValue(ps, k).Some? then LastValue(ps, k) else Lookup(m, k))
    decreases |ps|
  {
    if ps != [] {
      var init, p := ps[..|ps| - 1], ps[|ps| - 1];
      assert ps == init + [p];
      InsertAllSnoc(m, init, p);
      LookupInsertAll(m, init, k);
      InsertLookup(InsertAll(m, init), p.0, p.1);
    }
  }

  /** Assigning pairs whose keys are distinct into an empty map yields
      exactly those pairs, in that order. */
  lemma InsertAllDistinct<V>(ps: seq<(string, V)>)
    requires Valid(ps)
    ensures InsertAll([], ps) == ps
  {
    assert [] + ps == ps;
    InsertAllFresh([], ps);
  }

  /** Pairs whose keys are new, and distinct among themselves, are
      appended as they come. */
  lemma {:induction false} InsertAllFresh<V>(m: Map<V>, ps: seq<(string, V)>)
    requires Valid(m + ps)
    ensures InsertAll(m, ps) == m + ps
    decreases |ps|
  {
    if ps == [] {
      assert m + ps == m;
    } else {
      var p, rest := ps[0], ps[1..];
      assert Insert(m, p.0, p.1) == m + [p] by {
        FirstKeyIsFresh(m, ps);
        InsertNew(m, p.0, p.1);
      }
      assert (m + [p]) + rest == m + ps;
      InsertAllFresh(m + [p], rest);
    }
  }

  lemma FirstKeyIsFresh<V>(m: Map<V>, ps: seq<(string, V)>)
    requires Valid(m + ps) && ps != []
    ensures ps[0].0 !in Keys(m)
  {
    var mp := m + ps;
    assert mp[|m|] == ps[0];
    assert forall j | 0 <= j < |m| :: Keys(m)[j] == mp[j].0;
  }

  lemma {:induction false} InsertAllValid<V>(m: Map<V>, ps: seq<(string, V)>)
    requires Valid(m)
    ensures Valid(InsertAll(m, ps))
    decreases |ps|
  {
    if ps != [] {
      InsertInPlace(m, ps[0].0, ps[0].1);
      InsertAllValid(Insert(m, ps[0].0, ps[0].1), ps[1..]);
    }
  }
}

=== FILE: Primitives.dfy ===
/** The PHP library primitives the client calls but does not define —
    `parse_url`, `json_encode` and `json_decode` — and the error kinds the
    client raises. The primitives are parameters of the model. */
module Primitives {
  import opened Wrappers

  /** A value as `json_decode($text, true)` returns it; `JNull` is also the
      `null` that reports a failure to decode. */
  datatype Json =
    | JNull
    | JBool(b: bool)
    | JNumber(literal: string)
    | JString(s: string)
    | JArray(items: seq<Json>)
    | JObject(members: seq<(string, Json)>)

  /** The components `parse_url` may report; an absent key is None. */
  datatype UrlParts = UrlParts(
    scheme: Option<string>,
    host: Option<string>,
    port: Option<nat>,
    user: Option<string>,
    pass: Option<string>,
    path: Option<string>,
    query: Option<string>,
    fragment: Option<string>)

  const NoParts := UrlParts(None, None, None, None, None, None, None, None)

  /** PHP truthiness of a `parse_url` result: it did not fail (None stands
      for `false`) and reported at least one component. */
  predicate IsTruthy(parsed: Option<UrlParts>) {
    parsed.Some? && parsed.value != NoParts
  }

  /** The uninterpreted library functions. */
  datatype Env = Env(
    parseUrl: string -> Option<UrlParts>,
    jsonEncode: Json -> string,
    jsonDecode: string -> Json)

  /** The exceptions the client raises, as one datatype: `InvalidRequest`
      for `InvalidArgumentException`, `ConnectionError` for the
      `RuntimeException` of a failed connect, then the three exception
      classes of the Exceptions directory; only the status is kept. */
  datatype HttpError =
    | InvalidRequest
    | ConnectionError
    | ClientError(status: string)
    | ServerError(status: string)
    | JsonConversionError
}

=== FILE: ResponseParser.dfy ===
/** Reading a response from the connection, line by line: the status line,
    which alone decides a client or server error, then the header lines up
    to the first blank one, then the body, decoded as JSON when the
    Content-Type asks for it. The connection is the sequence of raw lines it
    delivers, each with its line break; end of stream is the end of the
    sequence. */
module ResponseParser {
  import opened Wrappers
  import opened Strings
  import OrderedMap
  import opened Primitives
  import opened HttpMessage
  import opened HttpResponse
  import opened BodyReader
  import WireFormat

  const JsonMediaType: string := "application/json"

  /** The status line after `trim`; an empty read when the stream is
      already at its end. */
  function StatusLine(lines: seq<string>): string {
    if lines == [] then "" else Trim(lines[0])
  }

  /** The `i`th piece of an exploded line, or None (PHP's `null`) when the
      line has fewer pieces. */
  function Piece(parts: seq<string>, i: nat): (p: Option<string>)
    ensures p.Some? <==> i < |parts|
    ensures p.Some? ==> p.value == parts[i]
  {
    if i < |parts| then Some(parts[i]) else None
  }

  /** The status code token: the second space-separated piece. */
  function StatusToken(lines: seq<string>): Option<string> {
    Piece(Explode(" ", StatusLine(lines)), 1)
  }

  /** The reason phrase: only the third space-separated piece. */
  function ReasonToken(lines: seq<string>): Option<string> {
    Piece(Explode(" ", StatusLine(lines)), 2)
  }

  /** `substr($token, 0, 1) === c`; a missing token reads as empty. */
  predicate Leads(token: Option<string>, c: char) {
    token.Some? && token.value != [] && token.value[0] == c
  }

  /** One header line, already trimmed: the name is the text before the
      first `": "`, the value the text between the first and the second
      (None when there is no separator). */
  function ParseHeaderLine(line: string): (field: (string, Option<string>))
    ensures field.0 <= line && !Contains(field.0, ": ")
    ensures field.1.None? <==> !Contains(line, ": ")
    ensures field.1.None? ==> field.0 == line
    ensures field.1.Some? ==>
      && !Contains(field.1.value, ": ")
      && (line == field.0 + ": " + field.1.value || field.0 + ": " + field.1.value + ": " <= line)
  {
    var parts := Explode(": ", line);
    assert |parts| >= 2 ==> Contains(line, ": ") by {
      if |parts| >= 2 {
        SeparatorPresent(parts);
      }
    }
    assert |parts| >= 2 ==>
      (line == parts[0] + ": " + parts[1] || parts[0] + ": " + parts[1] + ": " <= line)
    by {
      if |parts| >= 2 {
        SecondPiece(": ", parts);
      }
    }
    (parts[0], Piece(parts, 1))
  }

  /** The header fields read from `lines` up to the first line that is
      empty after trimming, and the lines after that one. Without such a
      line every line is a header line and nothing is left for the body. */
  function HeaderBlock(lines: seq<string>): (block: (Headers, seq<string>))
    ensures |block.0| <= |lines|
    ensures forall i | 0 <= i < |block.0| ::
      Trim(lines[i]) != "" && block.0[i] == ParseHeaderLine(Trim(lines[i]))
    ensures |block.0| == |lines| ==> block.1 == []
    ensures |block.0| < |lines| ==> Trim(lines[|block.0|]) == "" && block.1 == lines[|block.0| + 1..]
    decreases |lines|
  {
    if lines == [] then ([], [])
    else
      var line := Trim(lines[0]);
      if line == "" then ([], lines[1..])
      else
        var more := HeaderBlock(lines[1..]);
        assert forall i | 0 <= i < |more.0| :: lines[1..][i] == lines[i + 1];
        ([ParseHeaderLine(line)] + more.0, more.1)
  }

  /** Content negotiation on the body text: a Content-Type that contains
      `application/json` makes the body the decoded value, and a decoding
      to `null` is an error; any other body stays text. */
  predicate IsJsonType(contentType: Option<string>) {
    contentType.Some? && Contains(contentType.value, JsonMediaType)
  }

  function Negotiate(text: string, contentType: Option<string>, jsonDecode: string -> Json): (res: Result<Body, HttpError>)
    ensures !IsJsonType(contentType) ==> res == Success(Text(text))
    ensures IsJsonType(contentType) ==>
      (res.Failure? <==> jsonDecode(text) == JNull) &&
      (res.Failure? ==> res.error == JsonConversionError) &&
      (res.Success? ==> res.value == Structured(jsonDecode(text)))
  {
    if !IsJsonType(contentType) then Success(Text(text))
    else
      var decoded := jsonDecode(text);
      if decoded == JNull then Failure(JsonConversionError) else Success(Structured(decoded))
  }

  /** The lines left after the status line. */
  function AfterStatus(lines: seq<string>): seq<string> {
    if lines == [] then [] else lines[1..]
  }

  /** The response before its body: status code and reason phrase as
      tokenised, and the header fields assigned in order. */
  function Head(lines: seq<string>): (r: Response)
    ensures HttpMessage.Valid(r.message)
  {
    var r := WithReasonPhrase(WithStatusCode(NewResponse(), StatusToken(lines)), ReasonToken(lines));
    r.(message := WithHeaders(r.message, HeaderBlock(AfterStatus(lines)).0))
  }

  /** Whether the headers read announce `Transfer-Encoding: chunked`. */
  predicate Chunked(r: Response) {
    GetHeader(r.message, "Transfer-Encoding") == Some("chunked")
  }

  /** The body text read after the header block. */
  function BodyString(lines: seq<string>): string {
    BodyContent(HeaderBlock(AfterStatus(lines)).1, Chunked(Head(lines)))
  }

  /** The response parsed from the lines the connection delivers. A status
      token starting with `4` or `5` is a client or server error carrying
      that token; otherwise the response carries the second and third
      tokens of the status line, the headers up to the first blank line
      with later duplicates overwriting earlier ones, and the negotiated
      body. */
  function ParseResponse(lines: seq<string>, jsonDecode: string -> Json): (res: Result<Response, HttpError>)
    ensures res.Failure? && res.error.ClientError? <==> Leads(StatusToken(lines), '4')
    ensures res.Failure? && res.error.ServerError? <==> Leads(StatusToken(lines), '5')
    ensures res.Failure? && (res.error.ClientError? || res.error.ServerError?) ==>
      Some(res.error.status) == StatusToken(lines)
    ensures res.Failure? && res.error == JsonConversionError <==>
      && !Leads(StatusToken(lines), '4') && !Leads(StatusToken(lines), '5')
      && IsJsonType(GetHeader(Head(lines).message, "Content-Type"))
      && jsonDecode(BodyString(lines)) == JNull
    ensures res.Failure? ==> res.error != InvalidRequest && res.error != ConnectionError
    ensures res.Success? ==>
      res.value.message.body ==
        (if IsJsonType(GetHeader(Head(lines).message, "Content-Type")) then Structured(jsonDecode(BodyString(lines)))
         else Text(BodyString(lines)))
    ensures res.Success? ==>
      && res.value.statusCode == StatusToken(lines)
      && res.value.reasonPhrase == ReasonToken(lines)
      && res.value.message.headers == OrderedMap.InsertAll([], HeaderBlock(AfterStatus(lines)).0)
      && HttpMessage.Valid(res.value.message)
  {
    var code := StatusToken(lines);
    if Leads(code, '4') then Failure(ClientError(code.value))
    else if Leads(code, '5') then Failure(ServerError(code.value))
    else
      var head := Head(lines);
      var body :- Negotiate(BodyString(lines), GetHeader(head.message, "Content-Type"), jsonDecode);
      Success(head.(message := WithBody(head.message, body)))
  }

  /** A text body is decoded as the `Transfer-Encoding` header asks: a
      `chunked` value selects the chunk decoder, anything else (the header
      absent included) makes the body every remaining line, trimmed and
      joined. */
  lemma BodyFollowsTransferEncoding(lines: seq<string>, jsonDecode: string -> Json)
    requires ParseResponse(lines, jsonDecode).Success?
    requires !IsJsonType(GetHeader(Head(lines).message, "Content-Type"))
    ensures var rest := HeaderBlock(AfterStatus(lines)).1;
      ParseResponse(lines, jsonDecode).value.message.body ==
        if GetHeader(Head(lines).message, "Transfer-Encoding") == Some("chunked") then Text(BodyContent(rest, true))
        else Text(Concat(TrimAll(rest)))
  {
    PlainBodyIsAllLines(HeaderBlock(AfterStatus(lines)).1);
  }

  lemma SeparatorPresent(parts: seq<string>)
    requires |parts| >= 2
    ensures Contains(Join(": ", parts), ": ")
  {
    var s := Join(": ", parts);
    assert s == parts[0] + ": " + Join(": ", parts[1..]);
    ContainsAt(s, ": ", |parts[0]|);
  }

  /** A status token starting with `4` or `5` is decided by the status
      line alone: no header or body line is read, so whatever follows it
      makes no difference. */
  lemma ErrorStatusReadsOneLine(lines: seq<string>, more: seq<string>, jsonDecode: string -> Json)
    requires lines != []
    requires Leads(StatusToken(lines), '4') || Leads(StatusToken(lines), '5')
    ensures ParseResponse([lines[0]] + more, jsonDecode) == ParseResponse(lines, jsonDecode)
  {
    assert StatusLine([lines[0]] + more) == StatusLine(lines);
  }

  /** The header value is only the text between the first and the second
      `": "`: whatever follows a second separator is dropped. */
  lemma HeaderValueIsSecondPiece(name: string, value: string, dropped: string)
    requires !Contains(name, ": ") && !Contains(value, ": ")
    ensures ParseHeaderLine(name + ": " + value + ": " + dropped) == (name, Some(value))
  {
    ColonSpaceNoStraddle(name);
    ColonSpaceNoStraddle(value);
    assert name + ": " + value + ": " + dropped == name + ": " + (value + ": " + dropped);
    ExplodeAtFirstSeparator(": ", name, value + ": " + dropped);
    ExplodeAtFirstSeparator(": ", value, dropped);
  }

  /** A header line without `": "` is all name, with a `null` value. */
  lemma HeaderLineWithoutSeparator(line: string)
    requires !Contains(line, ": ")
    ensures ParseHeaderLine(line) == (line, None)
  {
    ExplodeWithoutSeparator(": ", line);
  }

  /** Status code and reason phrase are the second and third space-separated
      words of the trimmed status line; the words after the third, if any,
      are not part of the reason phrase. */
  lemma StatusLineTokens(lines: seq<string>, protocol: string, code: string, reason: string, rest: string)
    requires lines != [] && Trim(lines[0]) == protocol + " " + code + " " + reason + rest
    requires ' ' !in protocol && ' ' !in code && ' ' !in reason
    requires rest == [] || rest[0] == ' '
    ensures StatusToken(lines) == Some(code) && ReasonToken(lines) == Some(reason)
  {
    if rest == [] {
      assert protocol + " " + code + " " + reason + rest == protocol + " " + code + " " + reason;
      ExplodeThree(protocol, code, reason);
    } else {
      assert protocol + " " + code + " " + reason + rest == protocol + " " + code + " " + reason + " " + rest[1..];
      WordsBeforeRest(protocol, code, reason, rest[1..]);
    }
  }

  /** The first three words of a line with more words after them. */
  lemma WordsBeforeRest(protocol: string, code: string, reason: string, rest: string)
    requires ' ' !in protocol && ' ' !in code && ' ' !in reason
    ensures var parts := Explode(" ", protocol + " " + code + " " + reason + " " + rest);
      |parts| >= 3 && parts[1] == code && parts[2] == reason
  {
    MissingCharNotContained(protocol, ' ');
    MissingCharNotContained(code, ' ');
    MissingCharNotContained(reason, ' ');
    assert protocol + " "[..0] == protocol && code + " "[..0] == code && reason + " "[..0] == reason;
    var line := protocol + " " + code + " " + reason + " " + rest;
    assert line == protocol + " " + (code + " " + (reason + " " + rest));
    ExplodeAtFirstSeparator(" ", protocol, code + " " + (reason + " " + rest));
    ExplodeAtFirstSeparator(" ", code, reason + " " + rest);
    ExplodeAtFirstSeparator(" ", reason, rest);
  }

  /** A reason phrase of two words keeps only its first: a raw status line
      `protocol code first second` with CRLF gives the reason `first`, so
      `HTTP/1.1 304 Not Modified` gives `Not`. */
  lemma ReasonKeepsFirstWord(protocol: string, code: string, first: string, second: string)
    requires ' ' !in protocol && ' ' !in code && ' ' !in first
    requires protocol != [] && IsTrimmed(protocol) && second != [] && IsTrimmed(second)
    ensures var raw := protocol + " " + code + " " + first + " " + second + CRLF;
      ReasonToken([raw]) == Some(first)
  {
    var line := protocol + " " + code + " " + first + " " + second;
    assert IsTrimmed(line) by {
      assert line[0] == protocol[0] && line[|line| - 1] == second[|second| - 1];
    }
    TrimPadded(line, CRLF);
    assert line == protocol + " " + code + " " + first + (" " + second);
    StatusLineTokens([line + CRLF], protocol, code, first, " " + second);
  }

  /** Later header lines overwrite earlier ones with the same name: each
      name maps to the value of its last line in the header block. */
  lemma LastHeaderLineWins(lines: seq<string>, jsonDecode: string -> Json, name: string)
    requires ParseResponse(lines, jsonDecode).Success?
    ensures OrderedMap.Lookup(ParseResponse(lines, jsonDecode).value.message.headers, name) ==
      OrderedMap.LastValue(HeaderBlock(AfterStatus(lines)).0, name)
  {
    OrderedMap.LookupInsertAll([], HeaderBlock(AfterStatus(lines)).0, name);
  }

  /** At end of stream PHP's `fgets` returns `false`, which `trim` turns into
      an empty line, and the client reads once more before `feof` reports
      the end. That extra empty read changes nothing: status, headers and
      body are as without it. */
  lemma ExtraEmptyReadIsHarmless(lines: seq<string>, jsonDecode: string -> Json)
    ensures ParseResponse(lines + [""], jsonDecode) == ParseResponse(lines, jsonDecode)
  {
    var more := lines + [""];
    assert StatusLine(more) == StatusLine(lines) by {
      if lines == [] {
        assert Trim("") == "";
      } else {
        assert more[0] == lines[0];
      }
    }
    if lines == [] {
      assert AfterStatus(more) == AfterStatus(lines);
    } else {
      assert AfterStatus(more) == AfterStatus(lines) + [""];
      BodyAfterExtraEmpty(lines);
    }
    SameReadingSameResponse(more, lines, jsonDecode);
  }

  lemma BodyAfterExtraEmpty(lines: seq<string>)
    requires lines != []
    ensures Head(lines + [""]) == Head(lines) && BodyString(lines + [""]) == BodyString(lines)
  {
    var more := lines + [""];
    assert more[0] == lines[0];
    assert AfterStatus(more) == AfterStatus(lines) + [""];
    HeaderBlockExtraEmpty(AfterStatus(lines));
    var b, b' := HeaderBlock(AfterStatus(lines)).1, HeaderBlock(AfterStatus(more)).1;
    assert Head(more) == Head(lines);
    if b' != [] {
      TrailingEmptyReadIsHarmless(b, Chunked(Head(lines)));
    }
  }

  /** The response depends on the lines only through the status token, the
      head and the body text. */
  lemma SameReadingSameResponse(a: seq<string>, b: seq<string>, jsonDecode: string -> Json)
    requires StatusToken(a) == StatusToken(b) && Head(a) == Head(b) && BodyString(a) == BodyString(b)
    ensures ParseResponse(a, jsonDecode) == ParseResponse(b, jsonDecode)
  {
  }

  lemma {:induction false} HeaderBlockExtraEmpty(lines: seq<string>)
    ensures HeaderBlock(lines + [""]).0 == HeaderBlock(lines).0
    ensures HeaderBlock(lines + [""]).1 == [] || HeaderBlock(lines + [""]).1 == HeaderBlock(lines).1 + [""]
    ensures HeaderBlock(lines + [""]).1 == [] ==> HeaderBlock(lines).1 == []
    decreases |lines|
  {
    var more := lines + [""];
    if lines == [] {
      assert Trim("") == "";
      assert more[1..] == [];
    } else {
      assert more[0] == lines[0] && more[1..] == lines[1..] + [""];
      if Trim(lines[0]) != "" {
        HeaderBlockExtraEmpty(lines[1..]);
      }
    }
  }

  /** Raw lines as a server sends them: each ended by CRLF. */
  function WithCrlf(ls: seq<string>): (raw: seq<string>)
    ensures |raw| == |ls|
  {
    if ls == [] then [] else [ls[0] + CRLF] + WithCrlf(ls[1..])
  }

  /** A line as `fgets` delivers it: a line feed, if any, only as its last
      character. */
  predicate IsRawLine(line: string) {
    forall k | 0 <= k < |line| - 1 :: line[k] != '\n'
  }

  /** A header field that can be sent on a line of its own and read back:
      name and value present, neither holding `": "` or a line feed, nor
      starting or ending with a blank. */
  predicate SendableField(field: (string, Option<string>)) {
    && field.0 != [] && IsTrimmed(field.0) && !Contains(field.0, ": ") && '\n' !in field.0
    && field.1.Some? && field.1.value != [] && IsTrimmed(field.1.value) && !Contains(field.1.value, ": ")
    && '\n' !in field.1.value
  }

  /** The lines of a response with a status line, header fields, the blank
      line and body lines. */
  function ResponseLines(code: string, reason: string, h: Headers, body: seq<string>): seq<string> {
    [Protocol + " " + code + " " + reason + CRLF] + (WithCrlf(WireFormat.FieldLines(h)) + ([CRLF] + body))
  }

  /** A response read back: a status line with a code that is not an error
      and a one-word reason, distinct sendable headers that ask for neither
      chunking nor JSON, and body lines as `fgets` delivers them, parse back
      to that code, that reason, exactly those headers in that order, and
      the body lines trimmed and joined. */
  lemma ResponseRoundTrip(code: string, reason: string, h: Headers, body: seq<string>, jsonDecode: string -> Json)
    requires ' ' !in code && ' ' !in reason && reason != [] && IsTrimmed(reason)
    requires '\n' !in code && '\n' !in reason && forall i | 0 <= i < |body| :: IsRawLine(body[i])
    requires !Leads(Some(code), '4') && !Leads(Some(code), '5')
    requires OrderedMap.Valid(h) && forall i | 0 <= i < |h| :: SendableField(h[i])
    requires OrderedMap.Lookup(h, "Transfer-Encoding") != Some(Some("chunked"))
    requires !IsJsonType(OrderedMap.Lookup(h, "Content-Type").GetOr(None))
    ensures ParseResponse(ResponseLines(code, reason, h, body), jsonDecode) ==
      Success(Response(Message(Text(Concat(TrimAll(body))), h, Protocol), Some(code), Some(reason)))
  {
    var lines := ResponseLines(code, reason, h, body);
    HeadOfResponseLines(code, reason, h, body);
    var head := Head(lines);
    assert GetHeader(head.message, "Transfer-Encoding") != Some("chunked");
    assert BodyString(lines) == Concat(TrimAll(body)) by {
      PlainBodyIsAllLines(body);
    }
    TextResponse(lines, jsonDecode);
  }

  /** A status that is no error and a Content-Type that is not JSON: the
      response is the head with the body text as read. */
  lemma TextResponse(lines: seq<string>, jsonDecode: string -> Json)
    requires !Leads(StatusToken(lines), '4') && !Leads(StatusToken(lines), '5')
    requires !IsJsonType(GetHeader(Head(lines).message, "Content-Type"))
    ensures ParseResponse(lines, jsonDecode) ==
      Success(Head(lines).(message := WithBody(Head(lines).message, Text(BodyString(lines)))))
  {
  }

  lemma HeadOfResponseLines(code: string, reason: string, h: Headers, body: seq<string>)
    requires ' ' !in code && ' ' !in reason && reason != [] && IsTrimmed(reason)
    requires OrderedMap.Valid(h) && forall i | 0 <= i < |h| :: SendableField(h[i])
    ensures var lines := ResponseLines(code, reason, h, body);
      && Head(lines) == Response(Message(Text(""), h, Protocol), Some(code), Some(reason))
      && HeaderBlock(AfterStatus(lines)) == (h, body)
  {
    var lines := ResponseLines(code, reason, h, body);
    StatusOfResponseLines(code, reason, h, body);
    assert AfterStatus(lines) == WithCrlf(WireFormat.FieldLines(h)) + ([CRLF] + body);
    HeaderBlockOf(h, body);
    OrderedMap.InsertAllDistinct(h);
  }

  lemma StatusOfResponseLines(code: string, reason: string, h: Headers, body: seq<string>)
    requires ' ' !in code && ' ' !in reason && reason != [] && IsTrimmed(reason)
    ensures var lines := ResponseLines(code, reason, h, body);
      StatusToken(lines) == Some(code) && ReasonToken(lines) == Some(reason)
  {
    var status := Protocol + " " + code + " " + reason;
    assert IsTrimmed(status) by {
      assert status[0] == 'H' && status[|status| - 1] == reason[|reason| - 1];
    }
    TrimPadded(status, CRLF);
    ExplodeThree(Protocol, code, reason);
  }

  /** Sendable header lines followed by the blank line: the block reads
      back as exactly those fields, and the body lines are what is left. */
  lemma {:induction false} HeaderBlockOf(h: Headers, body: seq<string>)
    requires forall i | 0 <= i < |h| :: SendableField(h[i])
    ensures HeaderBlock(WithCrlf(WireFormat.FieldLines(h)) + ([CRLF] + body)) == (h, body)
    decreases |h|
  {
    if h == [] {
      EmptyHeaderBlock(body);
    } else {
      HeaderBlockStep(h, body);
      HeaderBlockOf(h[1..], body);
      assert [h[0]] + h[1..] == h;
    }
  }

  /** A blank line right after the status line ends an empty block. */
  lemma EmptyHeaderBlock(body: seq<string>)
    ensures HeaderBlock(WithCrlf(WireFormat.FieldLines([])) + ([CRLF] + body)) == ([], body)
  {
    var lines := WithCrlf(WireFormat.FieldLines([])) + ([CRLF] + body);
    assert lines == [CRLF] + body;
    TrimPadded("", CRLF);
    assert lines[1..] == body;
  }

  /** The first sendable header line of a block reads back as its field,
      ahead of what the remaining lines read as. */
  lemma HeaderBlockStep(h: Headers, body: seq<string>)
    requires h != [] && SendableField(h[0])
    ensures var rest := WithCrlf(WireFormat.FieldLines(h[1..])) + ([CRLF] + body);
      HeaderBlock(WithCrlf(WireFormat.FieldLines(h)) + ([CRLF] + body)) ==
        ([h[0]] + HeaderBlock(rest).0, HeaderBlock(rest).1)
  {
    var lines := WithCrlf(WireFormat.FieldLines(h)) + ([CRLF] + body);
    var line := WireFormat.FieldLine(h[0].0, h[0].1);
    var rest := WithCrlf(WireFormat.FieldLines(h[1..])) + ([CRLF] + body);
    assert lines == [line + CRLF] + rest by {
      assert WireFormat.FieldLines(h) == [line] + WireFormat.FieldLines(h[1..]);
    }
    SendableLine(h[0]);
    HeaderBlockCons(line + CRLF, rest);
  }

  /** A sendable field's line, with its CRLF, trims to itself and parses
      back to the field. */
  lemma SendableLine(field: (string, Option<string>))
    requires SendableField(field)
    ensures var line := WireFormat.FieldLine(field.0, field.1);
      line != "" && Trim(line + CRLF) == line && ParseHeaderLine(line) == field
  {
    var (name, value) := field;
    var line := WireFormat.FieldLine(name, value);
    assert line == name + ": " + value.value;
    assert IsTrimmed(line) by {
      assert line[0] == name[0] && line[|line| - 1] == value.value[|value.value| - 1];
    }
    TrimPadded(line, CRLF);
    FieldRoundTrip(name, value.value);
  }

  lemma HeaderBlockCons(line: string, rest: seq<string>)
    requires Trim(line) != ""
    ensures HeaderBlock([line] + rest) == ([ParseHeaderLine(Trim(line))] + HeaderBlock(rest).0, HeaderBlock(rest).1)
  {
    assert ([line] + rest)[1..] == rest;
  }

  /** How reading a response ends when the code runs as written: it returns
      a response, throws one of the client's exceptions, or stops with PHP's
      fatal error for a call to a method that no class defines. */
  datatype Outcome = Returned(response: Response) | Raised(error: HttpError) | UndefinedMethod(name: string)

  /** The response reader as written. After the header loop it calls
      `$response->getHeader(...)`, but neither HttpResponse nor HttpMessage
      defines that method (only `getHeaders`), so every status that is not
      a client or server error ends in the undefined-method error instead of
      a response. Error statuses throw before that call, as in
      ParseResponse. */
  function ParseResponseAsWritten(lines: seq<string>, jsonDecode: string -> Json): (r: Outcome)
    ensures !r.Returned?
    ensures r.Raised? <==> Leads(StatusToken(lines), '4') || Leads(StatusToken(lines), '5')
    ensures r.Raised? ==> ParseResponse(lines, jsonDecode) == Failure(r.error)
    ensures r.UndefinedMethod? ==>
      r.name == "getHeader" &&
      (ParseResponse(lines, jsonDecode).Success? || ParseResponse(lines, jsonDecode) == Failure(JsonConversionError))
  {
    var code := StatusToken(lines);
    if Leads(code, '4') then Raised(ClientError(code.value))
    else if Leads(code, '5') then Raised(ServerError(code.value))
    else UndefinedMethod("getHeader")
  }

  /** A plain `200 OK` response with no headers and an empty body: as
      written the client fails on `getHeader`, while the corrected reader
      (with GetHeader returning the value or `null`) returns status `200`
      and reason `OK`. */
  lemma OkResponseHitsUndefinedGetHeader(jsonDecode: string -> Json)
    ensures ParseResponseAsWritten(["HTTP/1.1 200 OK" + CRLF, CRLF], jsonDecode) == UndefinedMethod("getHeader")
    ensures ParseResponse(["HTTP/1.1 200 OK" + CRLF, CRLF], jsonDecode) ==
      Success(Response(Message(Text(""), [], Protocol), Some("200"), Some("OK")))
  {
    var lines := ResponseLines("200", "OK", [], []);
    assert WithCrlf(WireFormat.FieldLines([])) == [];
    assert lines == [Protocol + " " + "200" + " " + "OK" + CRLF] + [CRLF];
    assert Protocol + " " + "200" + " " + "OK" == "HTTP/1.1 200 OK";
    assert ["HTTP/1.1 200 OK" + CRLF, CRLF] == lines;
    ResponseRoundTrip("200", "OK", [], [], jsonDecode);
    assert Concat(TrimAll([])) == "";
  }
}

=== FILE: Strings.dfy ===
/** The PHP string primitives the client relies on: `trim`, `strtolower`,
    `strpos` (as a containment test) and `explode`, over `seq<char>` where each
    character stands for one byte. */
module Strings {

  const CRLF: string := "\r\n"

  /** The characters PHP's `trim` strips by default: space, tab, line feed,
      carriage return, NUL and vertical tab. */
  predicate IsBlank(c: char) {
    c == ' ' || c == '\t' || c == '\n' || c == '\r' || c == '\0' || c == '\U{B}'
  }

  predicate AllBlank(s: string) {
    forall k | 0 <= k < |s| :: IsBlank(s[k])
  }

  /** A string that `trim` leaves as it is. */
  predicate IsTrimmed(s: string) {
    s == [] || (!IsBlank(s[0]) && !IsBlank(s[|s| - 1]))
  }

  /** PHP `trim`: blanks are stripped from both ends until neither end is
      blank. */
  function Trim(s: string): (r: string)
    ensures IsTrimmed(r)
    ensures r == [] <==> AllBlank(s)
    ensures IsTrimmed(s) ==> r == s
    decreases |s|
  {
    if s != [] && IsBlank(s[0]) then
      assert AllBlank(s) <==> AllBlank(s[1..]) by {
        assert forall k | 1 <= k < |s| :: s[k] == s[1..][k - 1];
      }
      Trim(s[1..])
    else if s != [] && IsBlank(s[|s| - 1]) then
      assert AllBlank(s) <==> AllBlank(s[..|s| - 1]) by {
        assert forall k | 0 <= k < |s| - 1 :: s[k] == s[..|s| - 1][k];
      }
      Trim(s[..|s| - 1])
    else s
  }

  /** `r` sits in `s` at offset `i` with only blanks before and after it. */
  predicate InnerAt(s: string, r: string, i: nat) {
    i + |r| <= |s| && s[i..i + |r|] == r && AllBlank(s[..i]) && AllBlank(s[i + |r|..])
  }

  /** What `trim` keeps is a piece of its input with only blanks around it. */
  lemma {:induction false} TrimIsInner(s: string)
    ensures exists i: nat :: InnerAt(s, Trim(s), i)
    decreases |s|
  {
    var r := Trim(s);
    if s != [] && IsBlank(s[0]) {
      TrimIsInner(s[1..]);
      var i: nat :| InnerAt(s[1..], r, i);
      InnerAfterBlank(s, r, i);
    } else if s != [] && IsBlank(s[|s| - 1]) {
      TrimIsInner(s[..|s| - 1]);
      var i: nat :| InnerAt(s[..|s| - 1], r, i);
      InnerBeforeBlank(s, r, i);
    } else {
      assert InnerAt(s, r, 0);
    }
  }

  lemma InnerAfterBlank(s: string, r: string, i: nat)
    requires s != [] && IsBlank(s[0]) && InnerAt(s[1..], r, i)
    ensures InnerAt(s, r, i + 1)
  {
    assert s[i + 1..i + 1 + |r|] == s[1..][i..i + |r|];
    assert s[..i + 1] == [s[0]] + s[1..][..i];
    assert s[i + 1 + |r|..] == s[1..][i + |r|..];
  }

  lemma InnerBeforeBlank(s: string, r: string, i: nat)
    requires s != [] && IsBlank(s[|s| - 1]) && InnerAt(s[..|s| - 1], r, i)
    ensures InnerAt(s, r, i)
  {
    var t := s[..|s| - 1];
    assert s[i..i + |r|] == t[i..i + |r|];
    assert s[..i] == t[..i];
    assert s[i + |r|..] == t[i + |r|..] + [s[|s| - 1]];
  }

  /** Blank padding after a trimmed text is exactly what `trim` removes;
      this is how a raw line `text + CRLF` reads back as `text`. */
  lemma {:induction false} TrimPadded(s: string, pad: string)
    requires IsTrimmed(s) && AllBlank(pad)
    ensures Trim(s + pad) == s
    decreases |pad|
  {
    if pad == [] {
      assert s + pad == s;
    } else if s == [] {
      assert s + pad == pad;
    } else {
      var p := pad[..|pad| - 1];
      assert (s + pad)[0] == s[0];
      assert (s + pad)[..|s + pad| - 1] == s + p;
      TrimPadded(s, p);
    }
  }

  /** PHP `strtolower` on one character: ASCII upper-case letters only. */
  function LowerChar(c: char): char {
    if 'A' <= c <= 'Z' then (c as int - 'A' as int + 'a' as int) as char else c
  }

  predicate IsLowerCase(s: string) {
    forall k | 0 <= k < |s| :: !('A' <= s[k] <= 'Z')
  }

  /** PHP `strtolower`: the result has no upper-case letter, and a string
      without one is returned unchanged. */
  function ToLower(s: string): (r: string)
    ensures |r| == |s|
    ensures forall k | 0 <= k < |s| :: r[k] == LowerChar(s[k])
    ensures IsLowerCase(r)
    ensures IsLowerCase(s) ==> r == s
  {
    if s == [] then [] else [LowerChar(s[0])] + ToLower(s[1..])
  }

  /** PHP `strpos($s, $sub) !== false`: `sub` occurs somewhere in `s`. */
  predicate Contains(s: string, sub: string)
    decreases |s|
  {
    sub <= s || (s != [] && Contains(s[1..], sub))
  }

  lemma {:induction false} ContainsIsLongEnough(s: string, sub: string)
    requires Contains(s, sub)
    ensures |sub| <= |s|
    decreases |s|
  {
    if !(sub <= s) {
      ContainsIsLongEnough(s[1..], sub);
    }
  }

  /** PHP `implode`: the parts with `sep` between neighbours. */
  function Join(sep: string, parts: seq<string>): (r: string)
    requires |parts| >= 1
    ensures parts[0] <= r
  {
    if |parts| == 1 then parts[0] else parts[0] + sep + Join(sep, parts[1..])
  }

  /** Joined pieces start with the first two pieces and the separator
      between them, followed by another separator when more pieces follow. */
  lemma SecondPiece(sep: string, parts: seq<string>)
    requires |parts| >= 2
    ensures var s := Join(sep, parts);
      s == parts[0] + sep + parts[1] || parts[0] + sep + parts[1] + sep <= s
  {
    var tail := Join(sep, parts[1..]);
    assert Join(sep, parts) == parts[0] + sep + tail;
    if |parts| == 2 {
      assert tail == parts[1];
    } else {
      var j := Join(sep, parts[2..]);
      assert tail == parts[1] + sep + j by {
        assert parts[1..][1..] == parts[2..];
      }
      var p := parts[0] + sep + parts[1] + sep;
      assert parts[0] + sep + tail == p + j;
      assert p <= p + j;
    }
  }

  /** PHP `explode`: the pieces of `s` between the successive leftmost
      occurrences of `sep`. Joining them back with `sep` gives `s`, and no
      piece contains `sep`. */
  function Explode(sep: string, s: string): (parts: seq<string>)
    requires sep != []
    ensures |parts| >= 1
    ensures Join(sep, parts) == s
    ensures forall i | 0 <= i < |parts| :: !Contains(parts[i], sep)
    decreases |s|
  {
    if |s| < |sep| then
      (if Contains(s, sep) then ContainsIsLongEnough(s, sep); [s] else [s])
    else if s[..|sep|] == sep then
      [""] + Explode(sep, s[|sep|..])
    else
      var rest := Explode(sep, s[1..]);
      assert s == [s[0]] + s[1..];
      ExplodeStep(sep, s[0], s[1..], rest);
      [[s[0]] + rest[0]] + rest[1..]
  }

  /** One step of `explode`: a character that does not start a separator
      joins the first piece of the rest. */
  lemma ExplodeStep(sep: string, c: char, tail: string, rest: seq<string>)
    requires |rest| >= 1 && Join(sep, rest) == tail
    requires forall i | 0 <= i < |rest| :: !Contains(rest[i], sep)
    requires |sep| <= 1 + |tail| && ([c] + tail)[..|sep|] != sep
    ensures var parts := [[c] + rest[0]] + rest[1..];
      && Join(sep, parts) == [c] + tail
      && forall i | 0 <= i < |parts| :: !Contains(parts[i], sep)
  {
    var first := [c] + rest[0];
    var parts := [first] + rest[1..];
    assert rest[0] <= tail;
    PieceAfterChar(sep, c, tail, rest[0]);
    JoinAfterChar(sep, c, rest);
    forall i | 0 <= i < |parts|
      ensures !Contains(parts[i], sep)
    {
      if i > 0 {
        assert parts[i] == rest[1..][i - 1];
      }
    }
  }

  /** A character in front of the first piece is in front of the joined
      text. */
  lemma JoinAfterChar(sep: string, c: char, rest: seq<string>)
    requires |rest| >= 1
    ensures Join(sep, [[c] + rest[0]] + rest[1..]) == [c] + Join(sep, rest)
  {
    var first := [c] + rest[0];
    var parts := [first] + rest[1..];
    if |rest| == 1 {
      assert parts == [first];
    } else {
      var more := Join(sep, rest[1..]);
      assert parts[1..] == rest[1..];
      assert Join(sep, parts) == first + sep + more;
      assert first + sep + more == [c] + (rest[0] + sep + more);
    }
  }

  /** A piece free of `sep` stays free of it with a character in front,
      when that character does not start a `sep` in the text. */
  lemma PieceAfterChar(sep: string, c: char, tail: string, piece: string)
    requires piece <= tail && !Contains(piece, sep)
    requires |sep| <= 1 + |tail| && ([c] + tail)[..|sep|] != sep
    ensures !Contains([c] + piece, sep)
  {
    var first := [c] + piece;
    var whole := [c] + tail;
    assert first <= whole by {
      assert whole[..|first|] == [c] + tail[..|piece|];
    }
    assert |sep| <= |first| ==> first[..|sep|] == whole[..|sep|];
    assert first[1..] == piece;
  }

  /** A text without `sep` explodes to itself. */
  lemma {:induction false} ExplodeWithoutSeparator(sep: string, s: string)
    requires sep != [] && !Contains(s, sep)
    ensures Explode(sep, s) == [s]
    decreases |s|
  {
    if |s| >= |sep| {
      assert s[..|sep|] != sep;
      assert !Contains(s[1..], sep);
      ExplodeWithoutSeparator(sep, s[1..]);
      assert s == [s[0]] + s[1..];
    }
  }

  /** When nothing in `a`, nor across the boundary between `a` and `sep`,
      matches `sep`, the first piece of `a + sep + b` is `a`. */
  lemma {:induction false} ExplodeAtFirstSeparator(sep: string, a: string, b: string)
    requires sep != [] && !Contains(a + sep[..|sep| - 1], sep)
    ensures Explode(sep, a + sep + b) == [a] + Explode(sep, b)
    decreases |a|
  {
    var s := a + sep + b;
    if a == [] {
      assert s == sep + b;
      assert s[|sep|..] == b;
    } else {
      var x := a + sep[..|sep| - 1];
      assert x[..|sep|] == s[..|sep|];
      assert !(sep <= x);
      assert s[..|sep|] != sep;
      assert x[1..] == a[1..] + sep[..|sep| - 1];
      assert !Contains(x[1..], sep);
      assert s[1..] == a[1..] + sep + b;
      ExplodeAtFirstSeparator(sep, a[1..], b);
      assert [s[0]] + a[1..] == a;
    }
  }

  /** For the header separator `": "` no match can straddle the boundary,
      because its first character differs from its second. */
  lemma {:induction false} ColonSpaceNoStraddle(a: string)
    requires !Contains(a, ": ")
    ensures !Contains(a + ": "[..1], ": ")
    decreases |a|
  {
    var x := a + ": "[..1];
    if a != [] {
      assert !Contains(a[1..], ": ");
      ColonSpaceNoStraddle(a[1..]);
      assert x[1..] == a[1..] + ": "[..1];
      assert |a| >= 2 ==> x[..2] == a[..2];
      assert |a| == 1 ==> x[1] == ':';
      assert !(": " <= x);
    } else {
      assert x == ":";
      assert !Contains(x[1..], ": ");
    }
  }

  /** `explode(': ', name . ': ' . value)` gives back name and value when
      neither contains the separator. */
  lemma FieldRoundTrip(name: string, value: string)
    requires !Contains(name, ": ") && !Contains(value, ": ")
    ensures Explode(": ", name + ": " + value) == [name, value]
  {
    ColonSpaceNoStraddle(name);
    ExplodeAtFirstSeparator(": ", name, value);
    ExplodeWithoutSeparator(": ", value);
  }

  /** An occurrence at offset `i` is an occurrence. */
  lemma {:induction false} ContainsAt(s: string, sub: string, i: nat)
    requires i + |sub| <= |s| && s[i..i + |sub|] == sub
    ensures Contains(s, sub)
    decreases i
  {
    if i == 0 {
      assert s[..|sub|] == sub;
    } else {
      assert s[1..][i - 1..i - 1 + |sub|] == s[i..i + |sub|];
      ContainsAt(s[1..], sub, i - 1);
    }
  }

  /** Three words without spaces, joined by single spaces, explode back into
      those three words. */
  lemma ExplodeThree(a: string, b: string, c: string)
    requires ' ' !in a && ' ' !in b && ' ' !in c
    ensures Explode(" ", a + " " + b + " " + c) == [a, b, c]
  {
    MissingCharNotContained(a, ' ');
    MissingCharNotContained(b, ' ');
    MissingCharNotContained(c, ' ');
    assert a + " "[..0] == a;
    assert b + " "[..0] == b;
    assert a + " " + b + " " + c == a + " " + (b + " " + c);
    ExplodeAtFirstSeparator(" ", a, b + " " + c);
    ExplodeAtFirstSeparator(" ", b, c);
    ExplodeWithoutSeparator(" ", c);
  }

  /** A text without the character `c` does not contain the one-character text `[c]`. */
  lemma {:induction false} MissingCharNotContained(s: string, c: char)
    requires c !in s
    ensures !Contains(s, [c])
    decreases |s|
  {
    if s != [] {
      assert s[0] != c;
      MissingCharNotContained(s[1..], c);
    }
  }
}

=== FILE: WireFormat.dfy ===
/** Request serialisation: the connection parameters derived from the URL
    components, and the exact text written to the connection. */
module WireFormat {
  import opened Wrappers
  import opened Strings
  import opened Numerals
  import opened Primitives
  import opened HttpMessage

  /** The port argument handed to the socket: a number, or the text
      `":<port>"` that the code as written builds from an explicit port. */
  datatype PortArg = PortNumber(n: nat) | PortText(text: string)

  datatype Endpoint = Endpoint(hostname: string, port: PortArg)

  /** Where and how a request is sent: the socket endpoint, the value of the
      Host line, and the path and query of the request line. */
  datatype Target = Target(endpoint: Endpoint, host: string, path: string, query: string)

  /** PHP truthiness of a string: neither `""` nor `"0"`. */
  predicate IsTruthyText(s: string) {
    s != "" && s != "0"
  }

  /** The socket transports PHP registers, OpenSSL included. */
  const Transports: set<string> := {"tcp", "udp", "unix", "udg", "ssl", "tls", "tlsv1.0", "tlsv1.1", "tlsv1.2", "tlsv1.3"}

  /** A character PHP's socket layer reads as part of a transport name. */
  predicate IsSchemeChar(c: char) {
    'a' <= c <= 'z' || 'A' <= c <= 'Z' || '0' <= c <= '9' || c == '+' || c == '-' || c == '.'
  }

  /** The length of the run of transport-name characters `s` starts with. */
  function SchemeRun(s: string): (n: nat)
    ensures n <= |s|
    ensures forall k | 0 <= k < n :: IsSchemeChar(s[k])
    ensures n < |s| ==> !IsSchemeChar(s[n])
  {
    if s == [] || !IsSchemeChar(s[0]) then 0 else 1 + SchemeRun(s[1..])
  }

  /** The transport an address names: a run of at least two transport-name
      characters followed by `"://"`. Without one the socket layer uses tcp
      and takes the whole address as the host. */
  function TransportPrefix(address: string): (p: Option<string>)
    ensures p.Some? ==> |p.value| > 1 && p.value + "://" <= address
  {
    var n := SchemeRun(address);
    if n > 1 && "://" <= address[n..] then
      assert address[..n] + "://" == address[..n + 3];
      Some(address[..n])
    else None
  }

  /** What `fsockopen` takes before any connection is tried: an integer port
      and an address whose transport, if it names one, is registered. */
  predicate SocketTakes(e: Endpoint) {
    e.port.PortNumber? && (TransportPrefix(e.hostname).None? || TransportPrefix(e.hostname).value in Transports)
  }

  /** The connection parameters for a `parse_url` result (None stands for
      `false`, whose components all read as absent). The https scheme is
      sent over `ssl://` to port 443 whatever port the URL names; otherwise
      the port is the URL's, or 80 when it names none. This is the corrected
      target: the port is a number, and a scheme is kept as the address's
      transport only when it is one (so `http` goes over plain tcp), where
      the code as written passes the port as text and every scheme as a
      transport; ConnectionTargetAsWritten models that. */
  function ConnectionTarget(parsed: Option<UrlParts>): (t: Target)
    ensures var u := parsed.GetOr(NoParts);
      && (u.scheme == Some("https") ==> t.endpoint == Endpoint("ssl://" + t.host, PortNumber(443)))
      && (u.scheme != Some("https") ==> t.endpoint.port == PortNumber(u.port.GetOr(80)))
      && (u.scheme != Some("https") ==>
            t.endpoint.hostname == (if u.scheme.GetOr("") in Transports then u.scheme.value + "://" else "") + t.host)
      && t.host == u.host.GetOr("")
      && t.path == u.path.GetOr("/")
      && t.query == (if u.query.Some? then "?" + u.query.value else "")
  {
    var u := parsed.GetOr(NoParts);
    var scheme := u.scheme.GetOr("");
    var host := u.host.GetOr("");
    var path := u.path.GetOr("/");
    var query := if u.query.Some? then "?" + u.query.value else "";
    var secure := scheme == "https";
    var scheme' := if secure then "ssl" else scheme;
    var port := if secure then 443 else u.port.GetOr(80);
    var hostname := (if scheme' in Transports then scheme' + "://" else "") + host;
    Target(Endpoint(hostname, PortNumber(port)), host, path, query)
  }

  /** The connection parameters as the code computes them: any truthy
      scheme, https turned into ssl, is put in front of the host followed by
      `"://"`, and an explicit port, unless the scheme is https, is handed on
      as the text `":"` followed by its digits. Host, path and query are the
      corrected target's. */
  function ConnectionTargetAsWritten(parsed: Option<UrlParts>): (t: Target)
    ensures var u := parsed.GetOr(NoParts);
      var c := ConnectionTarget(parsed);
      && t.host == c.host && t.path == c.path && t.query == c.query
      && (u.scheme == Some("https") ==> t.endpoint == c.endpoint)
      && (u.scheme != Some("https") ==>
            t.endpoint.hostname == (if IsTruthyText(u.scheme.GetOr("")) then u.scheme.value + "://" else "") + t.host)
      && (u.scheme != Some("https") && u.port.None? ==> t.endpoint.port == PortNumber(80))
      && (u.scheme != Some("https") && u.port.Some? ==>
            && t.endpoint.port.PortText? && |t.endpoint.port.text| >= 2 && t.endpoint.port.text[0] == ':'
            && (forall k | 1 <= k < |t.endpoint.port.text| :: IsDigit(t.endpoint.port.text[k], 10))
            && (t.endpoint.port.text[1] == '0' <==> u.port.value == 0)
            && DigitsValue(t.endpoint.port.text[1..], 10) == u.port.value)
  {
    var u := parsed.GetOr(NoParts);
    var c := ConnectionTarget(parsed);
    if u.scheme == Some("https") then c
    else
      var scheme := u.scheme.GetOr("");
      var hostname := (if IsTruthyText(scheme) then scheme + "://" else "") + c.host;
      var digits := Decimal(u.port.GetOr(0));
      var port := if u.port.Some? then PortText(":" + digits) else PortNumber(80);
      assert u.port.Some? ==> port.text[1..] == digits;
      c.(endpoint := Endpoint(hostname, port))
  }

  /** A scheme that is no registered transport, `http` among them, makes the
      address as written name an unknown transport, which `fsockopen`
      refuses whatever the port. */
  lemma UnknownTransportIsRefused(parsed: Option<UrlParts>)
    requires var s := parsed.GetOr(NoParts).scheme;
      s.Some? && |s.value| > 1 && s.value !in Transports && s.value != "https"
      && forall k | 0 <= k < |s.value| :: IsSchemeChar(s.value[k])
    ensures !SocketTakes(ConnectionTargetAsWritten(parsed).endpoint)
    ensures ConnectionTarget(parsed).endpoint.hostname == ConnectionTarget(parsed).host
  {
    var s := parsed.GetOr(NoParts).scheme.value;
    var t := ConnectionTargetAsWritten(parsed);
    assert t.endpoint.hostname == s + ("://" + t.host);
    SchemeRunStops(s, "://" + t.host);
    assert t.endpoint.hostname[|s|..] == "://" + t.host;
  }

  /** `http` is such a scheme. */
  lemma HttpIsNoTransport()
    ensures "http" !in Transports && forall k | 0 <= k < |"http"| :: IsSchemeChar("http"[k])
  {
  }

  /** The corrected target always passes the socket layer's checks, for a
      host that does not itself look like `transport://`. */
  lemma CorrectedTargetIsTaken(parsed: Option<UrlParts>)
    requires !Contains(parsed.GetOr(NoParts).host.GetOr(""), "://")
    ensures SocketTakes(ConnectionTarget(parsed).endpoint)
  {
    var t := ConnectionTarget(parsed);
    var u := parsed.GetOr(NoParts);
    var scheme' := if u.scheme == Some("https") then "ssl" else u.scheme.GetOr("");
    if scheme' in Transports {
      assert t.endpoint == Endpoint(scheme' + "://" + t.host, PortNumber(t.endpoint.port.n));
      TransportAddressIsTaken(scheme', t.host, t.endpoint.port.n);
    } else {
      assert t.endpoint == Endpoint(t.host, PortNumber(t.endpoint.port.n));
      PlainAddressIsTaken(t.host, t.endpoint.port.n);
    }
  }

  lemma TransportAddressIsTaken(name: string, host: string, port: nat)
    requires name in Transports
    ensures SocketTakes(Endpoint(name + "://" + host, PortNumber(port)))
  {
    var address := name + "://" + host;
    assert address == name + ("://" + host);
    TransportNamesAreSchemeRuns(name);
    SchemeRunStops(name, "://" + host);
    assert address[|name|..] == "://" + host;
    assert address[..|name|] == name;
  }

  lemma PlainAddressIsTaken(host: string, port: nat)
    requires !Contains(host, "://")
    ensures SocketTakes(Endpoint(host, PortNumber(port)))
  {
    if TransportPrefix(host).Some? {
      var p := TransportPrefix(host).value;
      assert host[|p|..|p| + 3] == "://";
      ContainsAt(host, "://", |p|);
    }
  }

  /** Every registered transport name is a run of transport-name characters. */
  lemma TransportNamesAreSchemeRuns(name: string)
    requires name in Transports
    ensures forall k | 0 <= k < |name| :: IsSchemeChar(name[k])
  {
  }

  /** A run of transport-name characters stops at the first other one. */
  lemma {:induction false} SchemeRunStops(s: string, rest: string)
    requires forall k | 0 <= k < |s| :: IsSchemeChar(s[k])
    requires rest != [] && !IsSchemeChar(rest[0])
    ensures SchemeRun(s + rest) == |s|
  {
    if s != [] {
      assert (s + rest)[1..] == s[1..] + rest;
      SchemeRunStops(s[1..], rest);
    } else {
      assert s + rest == rest;
    }
  }

  /** The text a body is sent as: a structured body is JSON-encoded first. */
  function BodyText(b: Body, jsonEncode: Json -> string): string {
    match b
    case Text(s) => s
    case Structured(v) => jsonEncode(v)
  }

  /** One header line without its line break. */
  function FieldLine(name: string, value: Option<string>): string {
    name + ": " + value.GetOr("")
  }

  function FieldLines(h: Headers): (ls: seq<string>)
    ensures |ls| == |h|
    ensures forall i | 0 <= i < |h| :: ls[i] == FieldLine(h[i].0, h[i].1)
  {
    if h == [] then [] else [FieldLine(h[0].0, h[0].1)] + FieldLines(h[1..])
  }

  /** The request line: method, request target, protocol. */
  function RequestLine(verb: string, target: string): string {
    verb + " " + target + " " + Protocol
  }

  /** The request head, line by line: request line, Host, the headers in
      order, Content-length of the body text, Connection: close. */
  function HeadLines(verb: string, t: Target, h: Headers, bodyLength: nat): seq<string> {
    [RequestLine(verb, t.path + t.query), "Host: " + t.host]
    + FieldLines(h)
    + ["Content-length: " + Decimal(bodyLength), "Connection: close"]
  }

  /** Each line followed by CRLF. */
  function Terminated(ls: seq<string>): string {
    if ls == [] then "" else ls[0] + CRLF + Terminated(ls[1..])
  }

  /** Everything written to the connection: the head lines, the blank line
      that ends the head, then the body text and two CRLFs. */
  function WireRequest(verb: string, t: Target, h: Headers, body: string): string {
    Terminated(HeadLines(verb, t, h, |body|)) + CRLF + body + CRLF + CRLF
  }

  /** Splits off the text before the first CRLF. */
  function ReadLine(s: string): (r: Option<(string, string)>)
    ensures r.Some? ==> s == r.value.0 + CRLF + r.value.1
    decreases |s|
  {
    if |s| < 2 then None
    else if s[..2] == CRLF then Some(("", s[2..]))
    else
      match ReadLine(s[1..])
      case None => None
      case Some((line, rest)) =>
        assert s == [s[0]] + s[1..];
        Some(([s[0]] + line, rest))
  }

  /** Reads CRLF-terminated lines up to the first empty one: the head lines
      and whatever follows the blank line. */
  function ReadHead(s: string): Option<(seq<string>, string)>
    decreases |s|
  {
    match ReadLine(s)
    case None => None
    case Some((line, rest)) =>
      if line == "" then Some(([], rest))
      else
        match ReadHead(rest)
        case None => None
        case Some((ls, tail)) => Some(([line] + ls, tail))
  }

  lemma {:induction false} ReadLineOf(line: string, rest: string)
    requires '\r' !in line
    ensures ReadLine(line + CRLF + rest) == Some((line, rest))
    decreases |line|
  {
    var s := line + CRLF + rest;
    if line == [] {
      assert s == CRLF + rest;
    } else {
      assert s[1..] == line[1..] + CRLF + rest;
      ReadLineOf(line[1..], rest);
      assert [s[0]] + line[1..] == line;
    }
  }

  lemma {:induction false} ReadHeadOf(ls: seq<string>, rest: string)
    requires forall i | 0 <= i < |ls| :: ls[i] != "" && '\r' !in ls[i]
    ensures ReadHead(Terminated(ls) + CRLF + rest) == Some((ls, rest))
    decreases |ls|
  {
    if ls == [] {
      ReadLineOf("", rest);
      assert Terminated(ls) + CRLF + rest == "" + CRLF + rest;
    } else {
      var after := Terminated(ls[1..]) + CRLF + rest;
      assert Terminated(ls) + CRLF + rest == ls[0] + CRLF + after;
      ReadLineOf(ls[0], after);
      ReadHeadOf(ls[1..], rest);
      assert [ls[0]] + ls[1..] == ls;
    }
  }

  predicate NoCarriageReturn(s: string) {
    '\r' !in s
  }

  /** Header names and values that cannot break a line or a field apart. */
  predicate PlainHeaders(h: Headers) {
    forall i | 0 <= i < |h| ::
      && NoCarriageReturn(h[i].0) && NoCarriageReturn(h[i].1.GetOr(""))
      && !Contains(h[i].0, ": ") && !Contains(h[i].1.GetOr(""), ": ")
  }

  lemma HeadLinesArePlain(verb: string, t: Target, h: Headers, n: nat)
    requires NoCarriageReturn(verb + t.path + t.query + t.host) && PlainHeaders(h)
    ensures forall i | 0 <= i < |HeadLines(verb, t, h, n)| ::
      HeadLines(verb, t, h, n)[i] != "" && NoCarriageReturn(HeadLines(verb, t, h, n)[i])
  {
    var d := Decimal(n);
    assert forall k | 0 <= k < |d| :: d[k] != '\r' by {
      forall k | 0 <= k < |d| ensures d[k] != '\r' {
        assert IsDigit(d[k], 10);
      }
    }
    var ls := HeadLines(verb, t, h, n);
    var fs := FieldLines(h);
    forall i | 0 <= i < |ls| ensures ls[i] != "" && NoCarriageReturn(ls[i]) {
      if 2 <= i < 2 + |fs| {
        assert ls[i] == fs[i - 2];
      }
    }
  }

  /** The written request splits back into its head and body: reading
      CRLF-terminated lines up to the blank line yields exactly the head
      lines, and what follows is the body text and two CRLFs. */
  lemma WireRequestReadsBack(verb: string, t: Target, h: Headers, body: string)
    requires NoCarriageReturn(verb + t.path + t.query + t.host) && PlainHeaders(h)
    ensures ReadHead(WireRequest(verb, t, h, body)) == Some((HeadLines(verb, t, h, |body|), body + CRLF + CRLF))
  {
    var ls := HeadLines(verb, t, h, |body|);
    HeadLinesArePlain(verb, t, h, |body|);
    ReadHeadOf(ls, body + CRLF + CRLF);
    assert WireRequest(verb, t, h, body) == Terminated(ls) + CRLF + (body + CRLF + CRLF);
  }

  /** Each head line reads back to what it was built from: the request line
      splits at single spaces into method, path with query, and protocol;
      the header lines follow the Host line in the header map's order (see
      FieldLinesReadBack); the Content-length number is the body length. */
  lemma HeadLinesReadBack(verb: string, t: Target, h: Headers, n: nat)
    requires ' ' !in verb && ' ' !in t.path + t.query
    ensures var ls := HeadLines(verb, t, h, n);
      && |ls| == |h| + 4
      && Explode(" ", ls[0]) == [verb, t.path + t.query, Protocol]
      && ls[1] == "Host: " + t.host
      && ls[2..|h| + 2] == FieldLines(h)
      && ls[|h| + 2][..16] == "Content-length: "
      && DigitsValue(ls[|h| + 2][16..], 10) == n
      && ls[|h| + 3] == "Connection: close"
  {
    var ls := HeadLines(verb, t, h, n);
    RequestLineTokens(verb, t.path + t.query);
    assert ls[2..|h| + 2] == FieldLines(h);
    assert ls[|h| + 2] == "Content-length: " + Decimal(n);
    assert ls[|h| + 2][16..] == Decimal(n);
  }

  lemma RequestLineTokens(verb: string, target: string)
    requires ' ' !in verb && ' ' !in target
    ensures Explode(" ", RequestLine(verb, target)) == [verb, target, Protocol]
  {
    ExplodeThree(verb, target, Protocol);
  }

  /** Each header line splits at `": "` back into its name and value. */
  lemma FieldLinesReadBack(h: Headers)
    requires PlainHeaders(h)
    ensures forall i | 0 <= i < |h| :: Explode(": ", FieldLines(h)[i]) == [h[i].0, h[i].1.GetOr("")]
  {
    var fs := FieldLines(h);
    forall i | 0 <= i < |h| ensures Explode(": ", fs[i]) == [h[i].0, h[i].1.GetOr("")] {
      FieldRoundTrip(h[i].0, h[i].1.GetOr(""));
    }
  }
}

=== FILE: Wrappers.dfy ===
/** Failure-compatible Option and Result datatypes used across the model. */
module Wrappers {

  /** An optional value; stands for PHP's `null` where the PHP code may produce one. */
  datatype Option<+T> = None | Some(value: T) {

    /** The wrapped value, or `default` when there is none. */
    function GetOr(default: T): T
    {
      match this
      case Some(v) => v
      case None => default
    }
  }

  /** Either a value or an error; stands for a return versus a thrown exception. */
  datatype Result<+R, +E> = Success(value: R) | Failure(error: E) {

    predicate IsFailure() {
      Failure?
    }

    function PropagateFailure<U>(): Result<U, E>
      requires Failure?
    {
      Failure(error)
    }

    function Extract(): R
      requires Success?
    {
      value
    }
  }
}
